=== FILE: README.md ===
# Wadeea server core in Dafny

Wadeea is an attendance app for church Sunday-school classes. Servants (the teachers) take attendance
on their phones, sometimes offline. A Node/Express server keeps the shared store. This project models
the server's core as pure Dafny functions over an immutable snapshot of that store:

- **Sync** (`Sync`, `Push`, `Pull`, `Ordering`, `Sanitize`, `SyncTypes`). A client pushes a batch of
  offline changes and pulls every row changed since its last sync. The push orders changes by table
  tier. It strips sub-millisecond digits from ISO timestamps. It turns a `DELETE` into a soft delete
  and applies every other change as an upsert keyed on the row's id. Changes fail one by one without
  stopping the batch.
- **Classes** (`Classes`, `ManagerLinks`): listing live classes with their managers and attendance
  rate, creating classes, and assigning or removing class managers.
- **Accounts** (`Auth`, `UserAdmin`): registration (the first user becomes an active admin; later
  servants wait for approval), login with its four refusals, approval and the pending list.
- **Notifications** (`Notifications`, `Realtime`): who gets a push notification about a class, an
  admin event or one user, and the socket room an in-app notification is sent to.
- **Scheduled jobs** (`Jobs`): at 08:00 the birthday reminder and the check for students who have not
  attended within each user's threshold; at 20:00 the birthday-tomorrow reminder.
- **Translations** (`Arb`): the mobile app's script that lists message keys missing from the Arabic or
  the English ARB file.

Effects are not part of the model; they appear as follows:

- Every database call is a function over `Schema.Db`.
- The clock is a `now` parameter.
- Freshly generated ids are parameters. A clash with an existing id gives the Prisma unique-violation
  answer, 500.
- Password hashing is the `Auth.Crypto` parameter. The JWT is its claims, `Auth.Claims`.
- JavaScript's `new Date(string)` is the `Values.DateParser` parameter.
- The database checks of a push are the `Push.Env.check` oracle.
- Push notifications are returned as `Notifications.Message` values. Socket emissions are returned as
  `Realtime.Emission` values.

The `Class` table appears twice, on purpose and with nothing connecting the two: as typed
`Schema.ClassRow` values for the class endpoints, and as untyped rows of `SyncTypes.Table.Classes`
for the sync engine, which handles every table alike.

The code behaves as follows, which a reader may not expect from the app's description:

- Entity types in a push are case-sensitive. Only the five tokens of `SyncTypes.MapEntityToModel`
  name a table; there is no `ATTENDANCE_RECORD` alias and no `USER` table.
- A pull returns the same tables to every caller. It is not scoped by role and returns no users.
- A push is not a transaction. Each change is applied on its own.
- `Auth.RoleFor`: a client that asks for `ADMIN` at registration gets an active admin account.
- `Auth.Login` rejects a deleted account before it checks the password.
- The jobs' class lookup counts every manager link, soft-deleted ones included (`Jobs.LinkedClassIds`).
  The authorization helper `ManagerLinks.ManagedClassIds` skips soft-deleted links.

## Model

| member | source | states |
|---|---|---|
| SyncTypes.MapEntityToModel | server/src/controllers/syncController.ts:154-163 | `STUDENT`, `ATTENDANCE_SESSION`, `ATTENDANCE`, `NOTE` and `CLASS` each map to their own table, and every other token (another case, `USER`, `ATTENDANCE_RECORD`) maps to none |
| Ordering.Priority | server/src/controllers/syncController.ts:25-37 | each entity type has its own tier: `CLASS` 1, `USER` 2, `STUDENT` 3, `ATTENDANCE_SESSION` 4, `ATTENDANCE` and `NOTE` 5; any other token sorts last at 99 |
| Ordering.SortByPriority | server/src/controllers/syncController.ts:34-38 | the result is a permutation of the batch ordered by tier, and in every tier keeps exactly that tier's changes in their original order (a stable sort) |
| Sanitize.HasMicroStamp | server/src/controllers/syncController.ts:102 | true exactly when some position in the text starts a `YYYY-MM-DDTHH:MM:SS.dddddd` timestamp, the unanchored match the regex tests |
| Sanitize.SanitizePayload | server/src/controllers/syncController.ts:96-113 | keeps every key; changes no field other than a date field holding text; such a field becomes the parsed time when the parse succeeds and stays as sent otherwise |
| Sanitize.TruncateFraction | server/src/controllers/syncController.ts:103 | without a dot followed by four or more digits the text is unchanged; otherwise the first such run keeps its dot and three digits and loses the rest of its digits, so the text gets shorter and no longer has a long fraction there |
| Values.ToDate | server/src/controllers/syncController.ts:62 | a text is parsed, a number taken as milliseconds, a boolean as 0 or 1 and null as 0; the result is invalid exactly for an object, an unparseable text or a number beyond ±8.64e15 ms (the `Date` range) |
| Sanitize.IsoMicrosTruncated | server/src/controllers/syncController.ts:102-103 | a microsecond timestamp `...ss.ffffff` is cut to `...ss.fff` and nothing else in the text changes |
| Sanitize.PlainTextUntouched | server/src/controllers/syncController.ts:102-104 | a text without the pattern reaches the date parser unchanged |
| Sanitize.SanitizeIdempotent | server/src/controllers/syncController.ts:96-113 | sanitizing an already sanitized payload changes nothing |
| Push.DeletedAt | server/src/controllers/syncController.ts:59-66 | without a truthy `deletedAt` in the payload a delete is stamped with the server's clock; a non-empty text is parsed, and an unparseable one gives no time |
| Push.MarkDeleted | server/src/controllers/syncController.ts:60-64 | a soft delete sets `isDeleted`, `deletedAt` and `updatedAt` and leaves every other field as stored |
| Push.SoftDelete | server/src/controllers/syncController.ts:59-69 | a missing payload or an invalid `deletedAt` fails; with both valid, deleting an id with no row succeeds and changes nothing, and deleting an existing row succeeds exactly when the database accepts the marked row, which then replaces it in place; no other table changes |
| Push.Upsert | server/src/controllers/syncController.ts:70-79 | a new id gets the sanitized payload with `id` forced to the entity id; an existing row gets exactly the payload's fields overwritten, with no timestamp comparison; a payload `id` that differs moves the row to that id, fails when it is not text or is already taken, and otherwise succeeds exactly when the database accepts the row; every write succeeds exactly when the database accepts it; no other table changes |
| Push.Step | server/src/controllers/syncController.ts:44-84 | an unknown entity type fails as unknown; a known type is a soft delete for `DELETE` and `VIRTUAL_DELETE` and an upsert for every other operation; a step that succeeds changed no table other than its own |
| Push.Run | server/src/controllers/syncController.ts:40-85 | the processed and failed lists together have one entry per change of the batch |
| Push.HandlePush | server/src/controllers/syncController.ts:18-94 | a body whose `changes` is not a list is answered 400 exactly; any list is answered 200 with `success`, the processed and failed counts adding up to the batch |
| PushProperties.LedgerPartitionsBatch | server/src/controllers/syncController.ts:40-85 | the processed and failed uuids together are, as a multiset, the uuids of the batch, and each list keeps the order the changes ran in |
| PushProperties.FailureIsolated | server/src/controllers/syncController.ts:56-84 | inserting a failing change anywhere in a batch leaves the final store and the processed list as they would be without it, and adds one failure |
| PushProperties.UnknownTypeReported | server/src/controllers/syncController.ts:49-54 | a change with an unknown entity type is reported failed with `Unknown entity type` and its uuid |
| PushProperties.UntouchedTableUnchanged | server/src/controllers/syncController.ts:44-85 | a push changes no table that none of its changes targets |
| PushProperties.UpsertReplayIdempotent | server/src/controllers/syncController.ts:74-78 | replaying an accepted upsert leaves the store as the first application left it |
| PushProperties.DeleteReplayOnlyBumpsUpdatedAt | server/src/controllers/syncController.ts:59-69 | replaying a delete that carries its own `deletedAt` changes at most the row's `updatedAt`, and nothing in any other table |
| PushProperties.StaleUpdateOverwrites | server/src/controllers/syncController.ts:74-78 | an update whose payload is older than the stored row still overwrites it: the server keeps no last-writer-wins check |
| PushProperties.PushReportsEveryChange | server/src/controllers/syncController.ts:34-93 | the uuids in the response's processed and failed lists are, as a multiset, exactly the uuids pushed, each list in dependency order |
| Pull.SinceDate | server/src/controllers/syncController.ts:116-117 | a missing or empty `since` means the epoch, i.e. a full resync; otherwise the parsed date, if any |
| Pull.ChangedSince | server/src/controllers/syncController.ts:122-140 | a row is returned exactly when its `updatedAt` is strictly after the cut-off, soft-deleted rows included |
| Pull.HandlePull | server/src/controllers/syncController.ts:115-152 | the query fails exactly when `since` does not parse; otherwise each of the five tables holds exactly its rows changed after the checkpoint, and the response carries the server's clock |
| Pull.FullResyncReturnsEverything | server/src/controllers/syncController.ts:116-140 | with no `since`, every row updated after the epoch is returned, deleted rows included |
| Sync.SyncChanges | server/src/controllers/syncController.ts:8-16 | POST answers with the push handler's outcome and moves the store to the pushed store (a malformed batch leaves it unchanged); GET pulls and leaves the store unchanged; any other verb is 405 with the store unchanged |
| Sync.DeletedRowIsPulled | server/src/controllers/syncController.ts:59-69 | a row soft-deleted by a push is returned, marked deleted, by a later pull whose checkpoint lies before the delete |
| Notifications.Dispatch | server/src/utils/notificationUtils.ts:70-72 | a message is sent exactly when there is at least one token, to exactly those tokens |
| Notifications.ManagerRecipients | server/src/utils/notificationUtils.ts:25-48 | a user is picked exactly when joined to the class through a manager row, not excluded, holding a token, active, not deleted and not opted out of the type |
| Notifications.AdminRecipients | server/src/utils/notificationUtils.ts:51-68 | an admin is picked exactly when active and not deleted, not excluded, not already a manager of the class, with a token and not opted out |
| Notifications.NotifyClassManagers | server/src/utils/notificationUtils.ts:15-77 | every recipient is reachable; the managers are exactly the reachable users joined through the class's rows, the admins exactly the reachable active admins not among those rows; one message to all their tokens, none when there is nobody |
| Notifications.NotifyAdmins | server/src/utils/notificationUtils.ts:79-110 | the recipients are exactly the reachable active admins, and the message carries their tokens |
| Notifications.NotifyUser | server/src/utils/notificationUtils.ts:112-129 | a message goes out exactly when the user exists, holds a token, is active and not deleted; the type preference is not consulted |
| Classes.AttendanceStats | server/src/controllers/classController.ts:37-48 | the record and present counts over the class's live sessions, with present never above the total |
| Classes.PresentAtMostTotal | server/src/controllers/classController.ts:41-48 | over any sessions, the present records are no more than the counted records |
| Classes.Percentage | server/src/controllers/classController.ts:50-52 | no records give 0; otherwise the rate times the number of records is the number present |
| Classes.PercentageMeaning | server/src/controllers/classController.ts:50-52 | the rate is 0 with no records, otherwise present/total; it lies in [0,1] and is 1 exactly when every counted record is present |
| Classes.SortByNameSorted | server/src/controllers/classController.ts:34 | the classes come out ordered by name |
| Classes.DescribeAll | server/src/controllers/classController.ts:37-60 | each view is its class with the class's managers and attendance rate, in order |
| Classes.ListClasses | server/src/controllers/classController.ts:8-66 | exactly the live classes, ordered by name, each with its managers and a rate in [0,1] |
| Classes.CreateClass | server/src/controllers/classController.ts:69-82 | an empty name is 400 `Class name required`; a taken id is 500; otherwise 201 and the new live class is appended |
| Classes.CreatedClassIsListed | server/src/controllers/classController.ts:69-78 | a created class, with the name given, is among the live classes the listing starts from |
| Classes.AssignManager | server/src/controllers/classController.ts:85-115 | missing ids are 400; an existing link row, deleted or not, is 409; an unknown class or user is 500; otherwise 201 and exactly the new link is appended |
| Classes.RemoveManager | server/src/controllers/classController.ts:118-135 | missing ids are 400; a missing link is 500; otherwise 200 and the link row is deleted outright |
| Classes.AssignThenRemoveRestores | server/src/controllers/classController.ts:85-135 | assigning a manager and then removing the same pair leaves the links as they were |
| Classes.AssignTwiceConflicts | server/src/controllers/classController.ts:94-101 | assigning the same pair twice answers 409 the second time |
| Classes.AssignKeepsLinksUnique | server/src/controllers/classController.ts:94-109 | assignment keeps the (class, user) key of the link table unique |
| Classes.GetClassManagers | server/src/controllers/classController.ts:138-157 | a missing class id is 400; otherwise 200 with users linked to the class, every link row whose user exists contributing that user; when every row's user exists, one entry per link row in table order |
| Classes.JoinUsersComplete | server/src/controllers/classController.ts:145-150 | every link row whose user exists contributes that user's summary to the join |
| Classes.JoinUsersInOrder | server/src/controllers/classController.ts:145-150 | when every link row's user exists, the join has one entry per row, in row order |
| ManagerLinks.ManagedClassIds | server/src/utils/authUtils.ts:10-16 | a class id is listed exactly when the user has a live link to it |
| ManagerLinks.IsClassManager | server/src/utils/authUtils.ts:24-34 | true only for a live link of the pair; false when the pair has no row or its row is soft-deleted |
| ManagerLinks.IsClassManagerIffManaged | server/src/utils/authUtils.ts:10-34 | with the link key unique, the two helpers agree on every user and class |
| ManagerLinks.AssignedUserManages | server/src/utils/authUtils.ts:24-34 | after a successful assignment the user is a manager of the class |
| ManagerLinks.RemovedUserNoLongerManages | server/src/utils/authUtils.ts:10-34 | after a successful removal the user is neither a manager of the class nor lists it |
| Auth.RoleFor | server/src/controllers/authController.ts:18-23 | the role is admin exactly when no user exists yet or the request asks for `ADMIN` |
| Auth.NewUser | server/src/controllers/authController.ts:17-33 | a new account stores the hash of the password, never the password, and is active exactly when it is an admin |
| Auth.Register | server/src/controllers/authController.ts:10-39 | any row with the email, deleted or not, is 400 `User already exists`; a taken id is 500; otherwise 201 and the new user is appended |
| Auth.Login | server/src/controllers/authController.ts:41-62 | an unknown email or wrong password is 400, a deleted account 403, an inactive one 403 pending; success exactly when all checks pass, with claims for the user's id and role valid for an hour |
| Auth.RegisterKeepsEmailsUnique | server/src/controllers/authController.ts:14-15 | registration keeps the emails of the users table unique |
| Auth.FirstUserLogsInAsAdmin | server/src/controllers/authController.ts:18-23 | the first user to register can log in at once and gets admin claims |
| Auth.LaterServantPendsApproval | server/src/controllers/authController.ts:18-23 | a later user who does not ask for `ADMIN` is refused at login with 403 pending approval |
| Auth.RequestedAdminIsActiveAdmin | server/src/controllers/authController.ts:18-23 | a request for `ADMIN` always yields an active admin account |
| UserAdmin.ListPendingUsers | server/src/controllers/userController.ts:23-33 | exactly the inactive, undeleted servants, each as id, name, email and creation time |
| UserAdmin.SetActive | server/src/controllers/userController.ts:12-15 | the row with the id is switched on; every other row is unchanged |
| UserAdmin.ActivateUser | server/src/controllers/userController.ts:7-21 | a missing id is 400; an unknown id is 500; otherwise 200 and that user is active |
| UserAdmin.ActivatedIsNotPending | server/src/controllers/userController.ts:12-28 | once activated, a user is not in the pending list |
| UserAdmin.RegisteredServantIsPending | server/src/controllers/userController.ts:23-28 | a servant who registers after the first user appears in the pending list |
| UserAdmin.RegisterActivateLogin | server/src/controllers/userController.ts:7-17 | register, activate, then log in with the same password succeeds with servant claims |
| Realtime.AudienceOf | server/src/utils/realtimeNotifications.ts:19 | a missing or empty audience means `all`; any other audience is kept |
| Realtime.EmitAppNotification | server/src/utils/realtimeNotifications.ts:17-32 | admins go to the admin room, a user with a target id to that user's room, all to everyone; anything else only warns; the payload is never altered |
| Realtime.UserRoomIsNotAdminRoom | server/src/utils/realtimeNotifications.ts:21-26 | no user id makes a user room that equals the admin room |
| Jobs.LinkedClassIds | server/src/jobs/scheduledJobs.ts:47-48 | a class id is listed exactly when the user has a manager link to it, deleted links included |
| Jobs.BirthdayStudents | server/src/jobs/scheduledJobs.ts:60-66 | exactly the live students of the given classes born on the target month and day, in any year |
| Jobs.CheckBirthdays | server/src/jobs/scheduledJobs.ts:8-84 | a call is made exactly for each user and birthday student the user should be reminded of, and with unique user and student ids (both primary keys) no call occurs twice; the morning run looks at today, the evening run at tomorrow |
| Jobs.BirthdayCallsDistinct | server/src/jobs/scheduledJobs.ts:39-77 | with unique user and student ids, the reminder loop never repeats a call |
| Jobs.BirthdayCallsExactly | server/src/jobs/scheduledJobs.ts:13-78 | a call is made exactly for an active, undeleted user with birthday notifications on and a class link, and a student of theirs born on the target day |
| Jobs.BirthdayReminderDelivery | server/src/jobs/scheduledJobs.ts:74-77 | with unique user ids, a reminder call sends a push exactly when the user holds a token |
| Jobs.ThresholdDays | server/src/jobs/scheduledJobs.ts:109 | an unset or zero threshold means 14 days; any other value is kept |
| Jobs.InactiveStudents | server/src/jobs/scheduledJobs.ts:121-134 | exactly the live students of the user's classes with no attendance record, of any status, in a session on or after the cut-off |
| Jobs.CheckInactiveStudents | server/src/jobs/scheduledJobs.ts:86-151 | a call is made exactly for each user and inactive student that user should be alerted to, and with unique user and student ids no call occurs twice |
| Jobs.InactiveCallsDistinct | server/src/jobs/scheduledJobs.ts:105-146 | with unique user and student ids, the alert loop never repeats a call |
| Jobs.InactiveCallsExactly | server/src/jobs/scheduledJobs.ts:91-146 | an alert is made exactly for an active, undeleted user with inactive alerts on and a class link, and a student missing for the user's threshold |
| Jobs.RecentAttendanceSilences | server/src/jobs/scheduledJobs.ts:108-134 | a student with a record in a session dated on or after a user's own cutoff (now minus that user's threshold) never triggers an inactive alert to that user |
| Jobs.JobsAt | server/src/jobs/scheduledJobs.ts:153-166 | a minute starts jobs exactly at 08:00 or 20:00; 08:00 starts the morning birthday check first and the inactive check, 20:00 the evening birthday check only |
| Jobs.DailySchedule | server/src/jobs/scheduledJobs.ts:153-166 | over one day the jobs start as the morning birthday check and then the inactive check at 08:00 and the evening birthday check at 20:00, each once and nothing else |
| Arb.MessageKeys | mobile/lib/compare_arb.py:10-11 | the keys of the file that do not start with `@` |
| Arb.Compare | mobile/lib/compare_arb.py:13-22 | the keys missing on each side are exactly the set differences of the message keys; each is printed with its text from the file that has it, and every printed line is such a key's line |
| Arb.ReportPartitionsKeys | mobile/lib/compare_arb.py:13-14 | no key is reported on both sides, and every message key is shared or reported once |
| Arb.ReportEmptyIffSameKeys | mobile/lib/compare_arb.py:13-14 | nothing is reported exactly when both files define the same messages |
| Arb.CompareSymmetric | mobile/lib/compare_arb.py:13-14 | swapping the files swaps the two sections |
| Arb.MetadataIgnored | mobile/lib/compare_arb.py:10-14 | adding an `@` key to either file leaves the report unchanged |

## Left out

- Express routing, authentication middleware and JSON parsing are outside the core. A handler gets the
  fields it reads, as `Option` values where the body may omit them.
- Fields that are not strings are not modelled, for example a number where a name is expected. In the
  account and class handlers these reach Prisma or bcrypt and end in a 500. In a push, an upsert error
  is caught into the change's failed entry instead.
- Push.SoftDelete: a change's `entityId` is always text. In the source a DELETE without a string
  `entityId` runs `updateMany({ where: { id: undefined } })`. Prisma ignores an undefined filter, so
  every row of the table is soft-deleted and the change is reported as processed.
- Push.Upsert: only the payload's fields are written, and the schema file is not part of this model.
  When the payload has no `updatedAt`, an update keeps the stored value and a new row has none. A row
  without one is never returned by a pull, not even a full resync, and an update that keeps an old
  value is missed by a pull from a later checkpoint. The push-then-pull round trip therefore assumes
  that clients send `updatedAt`. A schema column marked `@updatedAt` would stamp the write time instead.
- Classes.GetClassManagers: each entry is the joined user's id, name and email. The source returns the
  link row itself with the user nested inside it.
- Classes.PercentageMeaning: the rate is an exact rational. JavaScript computes it in double precision.
- Classes.SortByNameSorted: names are compared by code point. The database orders them by its
  collation, and the order of equal names is left open.
- Classes.DescribeAll: a manager row whose user is missing is skipped. In the database a foreign key
  rules this out.
- Notifications.ManagerRecipients: a manager row whose user is missing is skipped. In the source
  `mgr.user.id` would throw and the catch would send nothing to anyone. A foreign key rules this out.
- Values.ToDate: every object or array value is invalid. JavaScript reads an array through its string
  form, so `new Date(["2024-01-01"])` is a valid date; the model does not carry arrays' contents.
- Classes.AssignManager: the response's nested user and class projections are reduced to the link row.
- Auth.Login: the `code: 'PENDING_APPROVAL'` field of the pending answer is not modelled. Signing the
  token with the secret is abstract: the token is its claims.
- Auth.Register: the count-then-create race between two concurrent first registrations is not
  modelled. Requests run one at a time.
- Push.HandlePush: the `sync_update` socket broadcast after a push is not modelled, and neither is the
  shape of the database's own error messages. A refused write is `Push.Failure.Rejected` with the
  oracle's text. A missing payload on a delete carries V8's text for `undefined`; for a `null` payload
  V8 says `null` instead, which the model does not distinguish.
- Push.SoftDelete: one clock reading serves the whole push. The source calls `new Date()` for each
  delete, once for `deletedAt` and once for `updatedAt`.
- Ordering.Priority: a token that names an `Object.prototype` member, such as `toString`, finds a
  function in the JavaScript table and compares as NaN. The model gives it 99 like any unknown token.
- Pull.HandlePull: a query that fails on an invalid date is `QueryError`. The source does not catch it.
- Pull.HandlePull: the five table queries read one snapshot of the store. The source runs them as
  separate queries outside a transaction, so a push landing in between is not modelled. Requests run
  one at a time.
- Jobs.CheckBirthdays: the server's time zone and daylight-saving shifts are not modelled. Today and
  tomorrow are calendar dates given by the caller.
- Jobs.DailySchedule: minutes of a day stand for the cron expressions. A day is exactly 24 hours, and
  so is each day of `Jobs.Cutoff`.
- Jobs.CheckInactiveStudents: the job reads one `now` for all users. The source calls `new Date()` once
  per user, a few milliseconds apart.
- Loading the ARB files from disk and printing the report are left out. Reading is I/O. Set iteration
  order is unspecified in Python.
- Console logging, the Firebase Admin send and the socket.io server are effects.
  The model returns the message or emission that would be handed to them.
- Database defaults (new ids, `createdAt`) come from parameters. An upsert's
  `updatedAt` is the payload's own value, as sent.

=== FILE: arb.dfy ===
/** The translation-file check of the mobile app: which message keys of the English ARB
    file are missing from the Arabic one and the other way round. Keys starting with '@'
    carry metadata and are not messages. Reading the files is left to the caller; a file
    is its JSON object with string values. */
module Arb {
  import opened Strings

  type ArbFile = map<string, string>

  /** `set(k for k in arb.keys() if not k.startswith('@'))`. */
  function MessageKeys(arb: ArbFile): (r: set<string>)
    ensures forall k :: k in r <==> k in arb && !StartsWith(k, "@")
  {
    set k | k in arb && !StartsWith(k, "@")
  }

  /** What the script prints: the two set differences, each key with its text in the file
      that has it. Python's set order is arbitrary, so each section is a set of lines. */
  datatype Report = Report(
    missingInAr: set<string>,
    missingInEn: set<string>,
    arLines: set<string>,
    enLines: set<string>)

  function Line(key: string, text: string): string {
    "- " + key + ": " + text
  }

  /** `missing_in_ar = en_keys - ar_keys`, `missing_in_en = ar_keys - en_keys`, and the lines
      `- key: text`; every printed text is looked up in the file that has the key, so the
      lookups cannot fail. */
  function Compare(en: ArbFile, ar: ArbFile): (r: Report)
    ensures forall k :: k in r.missingInAr <==> k in en && !StartsWith(k, "@") && k !in MessageKeys(ar)
    ensures forall k :: k in r.missingInEn <==> k in ar && !StartsWith(k, "@") && k !in MessageKeys(en)
    ensures forall k :: k in r.missingInAr ==> k in en && Line(k, en[k]) in r.arLines
    ensures forall k :: k in r.missingInEn ==> k in ar && Line(k, ar[k]) in r.enLines
    ensures forall l :: l in r.arLines ==> exists k :: k in r.missingInAr && l == Line(k, en[k])
    ensures forall l :: l in r.enLines ==> exists k :: k in r.missingInEn && l == Line(k, ar[k])
  {
    var missingInAr := MessageKeys(en) - MessageKeys(ar);
    var missingInEn := MessageKeys(ar) - MessageKeys(en);
    Report(missingInAr, missingInEn,
           set k | k in missingInAr :: Line(k, en[k]),
           set k | k in missingInEn :: Line(k, ar[k]))
  }

  /** No key is reported on both sides, and every message key of either file is either
      shared or reported on exactly one side. */
  lemma ReportPartitionsKeys(en: ArbFile, ar: ArbFile, k: string)
    requires k in MessageKeys(en) + MessageKeys(ar)
    ensures var r := Compare(en, ar);
      && !(k in r.missingInAr && k in r.missingInEn)
      && ((k in MessageKeys(en) && k in MessageKeys(ar)) || k in r.missingInAr || k in r.missingInEn)
  {
  }

  /** Nothing is reported exactly when both files define the same messages. */
  lemma ReportEmptyIffSameKeys(en: ArbFile, ar: ArbFile)
    ensures var r := Compare(en, ar);
      r.missingInAr == {} && r.missingInEn == {} <==> MessageKeys(en) == MessageKeys(ar)
  {
    var r := Compare(en, ar);
    if r.missingInAr == {} && r.missingInEn == {} {
      forall k | k in MessageKeys(en)
        ensures k in MessageKeys(ar)
      {
        assert k !in r.missingInAr;
      }
      forall k | k in MessageKeys(ar)
        ensures k in MessageKeys(en)
      {
        assert k !in r.missingInEn;
      }
    }
  }

  /** Swapping the files swaps the two sections. */
  lemma CompareSymmetric(en: ArbFile, ar: ArbFile)
    ensures Compare(ar, en).missingInAr == Compare(en, ar).missingInEn
    ensures Compare(ar, en).missingInEn == Compare(en, ar).missingInAr
  {
  }

  /** Metadata entries never change the report: adding an '@' key to either file leaves
      both sections as they were. */
  lemma MetadataIgnored(en: ArbFile, ar: ArbFile, key: string, text: string)
    requires StartsWith(key, "@")
    ensures Compare(en[key := text], ar).missingInAr == Compare(en, ar).missingInAr
    ensures Compare(en[key := text], ar).missingInEn == Compare(en, ar).missingInEn
    ensures Compare(en, ar[key := text]).missingInAr == Compare(en, ar).missingInAr
    ensures Compare(en, ar[key := text]).missingInEn == Compare(en, ar).missingInEn
  {
    assert MessageKeys(en[key := text]) == MessageKeys(en);
    assert MessageKeys(ar[key := text]) == MessageKeys(ar);
  }
}

=== FILE: auth.dfy ===
/** Registration and login. Password hashing and token signing are functions handed in:
    `hash` stands for one `bcrypt.hash(password, 10)` call, its salt already drawn, and
    `compare` for `bcrypt.compare`. A token is modelled by the claims it signs. */
module Auth {
  import opened Wrappers
  import opened Values
  import opened Schema
  import opened Http

  datatype Crypto = Crypto(hash: string -> string, compare: (string, string) -> bool)

  /** The lifetime of a login token, `expiresIn: '1h'`, in seconds. */
  const TokenLifetime: nat := 3600

  /** The signed part of a token: `{ userId, role }` and its lifetime. */
  datatype Claims = Claims(userId: string, role: Role, expiresIn: nat)

  /** The body of a registration; `role` is whatever the client sent, if anything. */
  datatype RegisterRequest = RegisterRequest(email: string, password: string, name: string, role: Option<string>)

  /** `user: { id, email, role, isActive }` of the 201 answer: no password, hashed or not. */
  datatype Registered = Registered(id: string, email: string, role: Role, isActive: bool)

  /** `{ token, user: { id, email, name, role } }` of a successful login. */
  datatype LoggedIn = LoggedIn(token: Claims, id: string, email: string, name: string, role: Role)

  /** `userCount === 0 ? 'ADMIN' : (role === 'ADMIN' ? 'ADMIN' : 'SERVANT')`. */
  function RoleFor(userCount: nat, requested: Option<string>): (r: Role)
    ensures r == Admin || r == Servant
    ensures r == Admin <==> userCount == 0 || requested == Some("ADMIN")
  {
    if userCount == 0 then Admin
    else if requested == Some("ADMIN") then Admin
    else Servant
  }

  /** The row `register` creates. Only an admin starts active. */
  function NewUser(db: Db, req: RegisterRequest, crypto: Crypto, newId: string, now: Time): (u: User)
    ensures u.role == RoleFor(|db.users|, req.role)
    ensures u.isActive <==> u.role == Admin
    ensures u.password == crypto.hash(req.password)
    ensures u.id == newId && u.email == req.email && u.name == req.name
    ensures !u.isDeleted && u.fcmToken.None? && u.preference.None?
  {
    var role := RoleFor(|db.users|, req.role);
    User(newId, req.email, req.name, crypto.hash(req.password), role, role == Admin, false, None, now, None)
  }

  predicate UserIdTaken(db: Db, id: string) {
    exists u :: u in db.users && u.id == id
  }

  /** `register`. Any row with the email, deleted or not, blocks the registration. The user
      count includes deleted rows, so only the very first registration is promoted; after that
      a client that asks for "ADMIN" gets an active admin. `newId` is the generated
      identifier; a clash is answered by the `catch` with a 500. */
  function Register(db: Db, req: RegisterRequest, crypto: Crypto, newId: string, now: Time)
    : (r: (Db, Reply<Registered>))
    ensures FindUserByEmail(db.users, req.email).Some? ==> r == (db, Failure(400, "User already exists"))
    ensures FindUserByEmail(db.users, req.email).None? && UserIdTaken(db, newId) ==> r == (db, Failure(500, ServerError))
    ensures r.1.Success? <==> FindUserByEmail(db.users, req.email).None? && !UserIdTaken(db, newId)
    ensures r.1.Success? ==>
      var u := NewUser(db, req, crypto, newId, now);
      && r.0 == db.(users := db.users + [u])
      && r.1 == Success(201, Registered(newId, req.email, u.role, u.isActive))
    ensures r.1.Failure? ==> r.0 == db
  {
    if FindUserByEmail(db.users, req.email).Some? then (db, Failure(400, "User already exists"))
    else if UserIdTaken(db, newId) then (db, Failure(500, ServerError))
    else
      var u := NewUser(db, req, crypto, newId, now);
      (db.(users := db.users + [u]), Success(201, Registered(newId, req.email, u.role, u.isActive)))
  }

  /** `login`. The checks run in the source's order: unknown email (400), deleted account
      (403, before the password is looked at), wrong password (400), pending approval (403). */
  function Login(db: Db, email: string, password: string, crypto: Crypto): (r: Reply<LoggedIn>)
    ensures FindUserByEmail(db.users, email).None? ==> r == Failure(400, "Invalid credentials")
    ensures FindUserByEmail(db.users, email).Some? ==>
      var u := FindUserByEmail(db.users, email).value;
      && (u.isDeleted ==> r == Failure(403, "Account deleted"))
      && (!u.isDeleted && !crypto.compare(password, u.password) ==> r == Failure(400, "Invalid credentials"))
      && (!u.isDeleted && crypto.compare(password, u.password) && !u.isActive ==>
            r == Failure(403, "Account pending approval"))
    ensures r.Success? <==>
      && FindUserByEmail(db.users, email).Some?
      && var u := FindUserByEmail(db.users, email).value;
         !u.isDeleted && u.isActive && crypto.compare(password, u.password)
    ensures r.Success? ==>
      var u := FindUserByEmail(db.users, email).value;
      && r.status == 200
      && r.value == LoggedIn(Claims(u.id, u.role, TokenLifetime), u.id, u.email, u.name, u.role)
  {
    match FindUserByEmail(db.users, email)
    case None => Failure(400, "Invalid credentials")
    case Some(u) =>
      if u.isDeleted then Failure(403, "Account deleted")
      else if !crypto.compare(password, u.password) then Failure(400, "Invalid credentials")
      else if !u.isActive then Failure(403, "Account pending approval")
      else Success(200, LoggedIn(Claims(u.id, u.role, TokenLifetime), u.id, u.email, u.name, u.role))
  }

  /** Looking up an email that was absent before a row was appended finds that row. */
  lemma {:induction false} FindAppendedEmail(users: seq<User>, u: User)
    requires FindUserByEmail(users, u.email).None?
    ensures FindUserByEmail(users + [u], u.email) == Some(u)
  {
    if users != [] {
      assert (users + [u])[1..] == users[1..] + [u];
      FindAppendedEmail(users[1..], u);
    } else {
      assert users + [u] == [u];
    }
  }

  /** Registration keeps emails unique. */
  lemma RegisterKeepsEmailsUnique(db: Db, req: RegisterRequest, crypto: Crypto, newId: string, now: Time)
    requires UniqueEmails(db.users)
    ensures UniqueEmails(Register(db, req, crypto, newId, now).0.users)
  {
    var r := Register(db, req, crypto, newId, now);
    if r.1.Success? {
      var users := r.0.users;
      forall i, j | 0 <= i < j < |users|
        ensures users[i].email != users[j].email
      {
        if j == |users| - 1 {
          assert users[i] in db.users;
        }
      }
    }
  }

  /** The first user to register is an active admin and can log in straight away with the
      password they chose, receiving a token with the admin role. */
  lemma FirstUserLogsInAsAdmin(db: Db, req: RegisterRequest, crypto: Crypto, newId: string, now: Time)
    requires db.users == []
    requires crypto.compare(req.password, crypto.hash(req.password))
    ensures var db2 := Register(db, req, crypto, newId, now).0;
      && Login(db2, req.email, req.password, crypto).Success?
      && Login(db2, req.email, req.password, crypto).value.token == Claims(newId, Admin, TokenLifetime)
  {
    var u := NewUser(db, req, crypto, newId, now);
    assert Register(db, req, crypto, newId, now).0.users == [u];
  }

  /** Any later registration that does not ask for "ADMIN" creates a servant who cannot log in
      until activated: the right password is answered with 403 pending approval. */
  lemma LaterServantPendsApproval(db: Db, req: RegisterRequest, crypto: Crypto, newId: string, now: Time)
    requires db.users != [] && req.role != Some("ADMIN")
    requires Register(db, req, crypto, newId, now).1.Success?
    requires crypto.compare(req.password, crypto.hash(req.password))
    ensures var db2 := Register(db, req, crypto, newId, now).0;
      Login(db2, req.email, req.password, crypto) == Failure(403, "Account pending approval")
  {
    var u := NewUser(db, req, crypto, newId, now);
    FindAppendedEmail(db.users, u);
  }

  /** A client that asks for "ADMIN" always gets an active admin account. */
  lemma RequestedAdminIsActiveAdmin(db: Db, req: RegisterRequest, crypto: Crypto, newId: string, now: Time)
    requires req.role == Some("ADMIN")
    requires Register(db, req, crypto, newId, now).1.Success?
    ensures var reply := Register(db, req, crypto, newId, now).1;
      reply.value.role == Admin && reply.value.isActive
  {
  }
}

=== FILE: classes.dfy ===
/** The class administration endpoints: listing classes with their managers and attendance
    rate, creating a class, and assigning, removing and listing a class's managers. */
module Classes {
  import opened Wrappers
  import opened Strings
  import opened Schema
  import opened Http

  /** `select: { id, name, email }` of a user. */
  datatype UserSummary = UserSummary(id: string, name: string, email: string)

  /** One entry of the `listClasses` answer: the class row, its managers and the share of
      present records. */
  datatype ClassView = ClassView(cls: ClassRow, managers: seq<UserSummary>, attendancePercentage: real)

  function Summary(u: User): UserSummary {
    UserSummary(u.id, u.name, u.email)
  }

  /** The users the link rows join to, in row order (`include: { user: { select } }`). */
  function JoinUsers(users: seq<User>, rows: seq<ManagerLink>): (r: seq<UserSummary>)
    ensures |r| <= |rows|
    ensures forall x :: x in r ==> exists u :: u in users && x == Summary(u) && AmongRows(rows, u.id)
  {
    if rows == [] then []
    else
      var head := match FindUser(users, rows[0].userId)
                  case None => []
                  case Some(u) => [Summary(u)];
      var tail := JoinUsers(users, rows[1..]);
      assert forall x :: x in tail ==> exists u :: u in users && x == Summary(u) && AmongRows(rows, u.id) by {
        forall x | x in tail
          ensures exists u :: u in users && x == Summary(u) && AmongRows(rows, u.id)
        {
          var u :| u in users && x == Summary(u) && AmongRows(rows[1..], u.id);
          var m :| m in rows[1..] && m.userId == u.id;
          assert m in rows;
        }
      }
      assert forall x :: x in head ==> exists u :: u in users && x == Summary(u) && AmongRows(rows, u.id) by {
        forall x | x in head
          ensures exists u :: u in users && x == Summary(u) && AmongRows(rows, u.id)
        {
          var u := FindUser(users, rows[0].userId).value;
          assert rows[0] in rows;
        }
      }
      head + tail
  }

  /** Every link row whose user exists contributes that user's summary. */
  lemma {:induction false} JoinUsersComplete(users: seq<User>, rows: seq<ManagerLink>)
    ensures forall j :: 0 <= j < |rows| && FindUser(users, rows[j].userId).Some? ==>
      Summary(FindUser(users, rows[j].userId).value) in JoinUsers(users, rows)
  {
    if rows != [] {
      JoinUsersComplete(users, rows[1..]);
      forall j | 0 <= j < |rows| && FindUser(users, rows[j].userId).Some?
        ensures Summary(FindUser(users, rows[j].userId).value) in JoinUsers(users, rows)
      {
        if j > 0 {
          assert rows[j] == rows[1..][j - 1];
        }
      }
    }
  }

  /** When every row's user exists, which the foreign key guarantees, the answer has one
      entry per link row, in row order. */
  lemma {:induction false} JoinUsersInOrder(users: seq<User>, rows: seq<ManagerLink>)
    ensures (forall j :: 0 <= j < |rows| ==> FindUser(users, rows[j].userId).Some?) ==>
      && |JoinUsers(users, rows)| == |rows|
      && forall j :: 0 <= j < |rows| ==>
           JoinUsers(users, rows)[j] == Summary(FindUser(users, rows[j].userId).value)
  {
    if rows != [] && forall j :: 0 <= j < |rows| ==> FindUser(users, rows[j].userId).Some? {
      assert forall j :: 0 <= j < |rows| - 1 ==> rows[1..][j] == rows[j + 1];
      JoinUsersInOrder(users, rows[1..]);
      assert JoinUsers(users, rows) == [Summary(FindUser(users, rows[0].userId).value)] + JoinUsers(users, rows[1..]);
    }
  }

  // ---------------------------------------------------------------- attendance rate

  /** The class's live sessions, `sessions: { where: { isDeleted: false } }`, in table order. */
  function LiveSessions(sessions: seq<Session>, classId: string): (r: seq<Session>)
    ensures forall x :: x in r <==> x in sessions && x.classId == classId && !x.isDeleted
  {
    if sessions == [] then []
    else
      (if sessions[0].classId == classId && !sessions[0].isDeleted then [sessions[0]] else [])
      + LiveSessions(sessions[1..], classId)
  }

  /** A record the statistics count for a session: `records: { where: { isDeleted: false } }`. */
  predicate Counted(r: AttendanceRecord, sessionId: string) {
    r.sessionId == sessionId && !r.isDeleted
  }

  predicate Present(r: AttendanceRecord) {
    r.status == "PRESENT"
  }

  /** The number of live records of the session among `rs`. */
  function RecordCount(rs: seq<AttendanceRecord>, sessionId: string): nat {
    if rs == [] then 0
    else RecordCount(rs[..|rs| - 1], sessionId) + (if Counted(rs[|rs| - 1], sessionId) then 1 else 0)
  }

  /** The number of those records whose status is exactly "PRESENT". */
  function PresentCount(rs: seq<AttendanceRecord>, sessionId: string): nat {
    if rs == [] then 0
    else
      PresentCount(rs[..|rs| - 1], sessionId)
      + (if Counted(rs[|rs| - 1], sessionId) && Present(rs[|rs| - 1]) then 1 else 0)
  }

  /** `totalRecords` of a class: its sessions' record counts added up. */
  function TotalOver(ss: seq<Session>, rs: seq<AttendanceRecord>): nat {
    if ss == [] then 0 else TotalOver(ss[..|ss| - 1], rs) + RecordCount(rs, ss[|ss| - 1].id)
  }

  /** `presentRecords` of a class. */
  function PresentOver(ss: seq<Session>, rs: seq<AttendanceRecord>): nat {
    if ss == [] then 0 else PresentOver(ss[..|ss| - 1], rs) + PresentCount(rs, ss[|ss| - 1].id)
  }

  lemma {:induction false} PresentAtMostRecords(rs: seq<AttendanceRecord>, sessionId: string)
    ensures PresentCount(rs, sessionId) <= RecordCount(rs, sessionId)
  {
    if rs != [] {
      PresentAtMostRecords(rs[..|rs| - 1], sessionId);
    }
  }

  /** Never more present records than records: the rate cannot exceed one. */
  lemma {:induction false} PresentAtMostTotal(ss: seq<Session>, rs: seq<AttendanceRecord>)
    ensures PresentOver(ss, rs) <= TotalOver(ss, rs)
  {
    if ss != [] {
      PresentAtMostTotal(ss[..|ss| - 1], rs);
      PresentAtMostRecords(rs, ss[|ss| - 1].id);
    }
  }

  /** The two nested `forEach` loops of `listClasses`: every live record of every live
      session of the class is counted once, and counted as present when its status is
      "PRESENT". */
  method AttendanceStats(db: Db, classId: string) returns (total: nat, present: nat)
    ensures total == TotalOver(LiveSessions(db.sessions, classId), db.records)
    ensures present == PresentOver(LiveSessions(db.sessions, classId), db.records)
    ensures present <= total
  {
    var ss := LiveSessions(db.sessions, classId);
    var rs := db.records;
    total, present := 0, 0;
    var i := 0;
    while i < |ss|
      invariant 0 <= i <= |ss|
      invariant total == TotalOver(ss[..i], rs)
      invariant present == PresentOver(ss[..i], rs)
    {
      var sid := ss[i].id;
      var j := 0;
      var t, p := 0, 0;
      while j < |rs|
        invariant 0 <= j <= |rs|
        invariant t == RecordCount(rs[..j], sid)
        invariant p == PresentCount(rs[..j], sid)
      {
        assert rs[..j + 1][..j] == rs[..j];
        if Counted(rs[j], sid) {
          t := t + 1;
          if Present(rs[j]) {
            p := p + 1;
          }
        }
        j := j + 1;
      }
      assert rs[..j] == rs;
      assert ss[..i + 1][..i] == ss[..i];
      total, present := total + t, present + p;
      i := i + 1;
    }
    assert ss[..i] == ss;
    PresentAtMostTotal(ss, rs);
  }

  /** `totalRecords > 0 ? presentRecords / totalRecords : 0`, as an exact ratio. */
  function Percentage(present: nat, total: nat): (r: real)
    ensures total == 0 ==> r == 0.0
    ensures total > 0 ==> r * (total as real) == present as real
  {
    if total > 0 then (present as real) / (total as real) else 0.0
  }

  /** The rate is the ratio of present to all counted records, between zero and one when
      there are no more present records than records, and exactly one when every counted
      record is present. */
  lemma PercentageMeaning(present: nat, total: nat)
    ensures total > 0 ==> Percentage(present, total) * (total as real) == present as real
    ensures present <= total ==> 0.0 <= Percentage(present, total) <= 1.0
    ensures Percentage(present, total) == 1.0 <==> total > 0 && present == total
  {
    var p := Percentage(present, total);
    if total > 0 {
      var t := total as real;
      assert p == (present as real) / t;
      if present == total {
        assert p == t / t == 1.0;
      }
      if p == 1.0 {
        assert present as real == p * t == t;
      }
    }
  }


  // ---------------------------------------------------------------- listing

  /** `class.findMany({ where: { isDeleted: false } })`, in table order. */
  function LiveClasses(classes: seq<ClassRow>): (r: seq<ClassRow>)
    ensures forall c :: c in r <==> c in classes && !c.isDeleted
  {
    if classes == [] then []
    else (if !classes[0].isDeleted then [classes[0]] else []) + LiveClasses(classes[1..])
  }

  /** `orderBy: { name: 'asc' }`: each name is at most the next. */
  ghost predicate SortedByName(s: seq<ClassRow>) {
    forall i :: 0 <= i < |s| - 1 ==> LexLe(s[i].name, s[i + 1].name)
  }

  function InsertByName(c: ClassRow, s: seq<ClassRow>): (r: seq<ClassRow>)
    ensures |r| == |s| + 1
    ensures multiset(r) == multiset(s) + multiset{c}
    ensures r[0] == c || (s != [] && r[0] == s[0])
  {
    if s == [] then [c]
    else if LexLe(c.name, s[0].name) then [c] + s
    else
      assert s == [s[0]] + s[1..];
      [s[0]] + InsertByName(c, s[1..])
  }

  lemma {:induction false} InsertByNameSorted(c: ClassRow, s: seq<ClassRow>)
    requires SortedByName(s)
    ensures SortedByName(InsertByName(c, s))
  {
    if s != [] && !LexLe(c.name, s[0].name) {
      LexLeTotal(c.name, s[0].name);
      assert SortedByName(s[1..]) by {
        forall i | 0 <= i < |s[1..]| - 1
          ensures LexLe(s[1..][i].name, s[1..][i + 1].name)
        {
          assert s[1..][i] == s[i + 1] && s[1..][i + 1] == s[i + 2];
        }
      }
      InsertByNameSorted(c, s[1..]);
      var rest := InsertByName(c, s[1..]);
      var r := [s[0]] + rest;
      assert r == InsertByName(c, s);
      forall i | 0 <= i < |r| - 1
        ensures LexLe(r[i].name, r[i + 1].name)
      {
        if i > 0 {
          assert r[i] == rest[i - 1] && r[i + 1] == rest[i];
        }
      }
    }
  }

  /** Insertion sort by name. Rows with equal names may come in any order in the source,
      where the database decides; here they keep their table order. */
  function SortByName(s: seq<ClassRow>): (r: seq<ClassRow>)
    ensures |r| == |s|
    ensures multiset(r) == multiset(s)
  {
    if s == [] then []
    else
      assert s == [s[0]] + s[1..];
      InsertByName(s[0], SortByName(s[1..]))
  }

  lemma {:induction false} SortByNameSorted(s: seq<ClassRow>)
    ensures SortedByName(SortByName(s))
  {
    if s != [] {
      SortByNameSorted(s[1..]);
      InsertByNameSorted(s[0], SortByName(s[1..]));
    }
  }

  /** The class's managers as `listClasses` and `getClassManagers` return them: every link
      row of the class, soft-deleted ones included, joined to its user. */
  function ClassManagers(db: Db, classId: string): seq<UserSummary> {
    JoinUsers(db.users, ManagerRows(db.links, classId))
  }

  /** The class's attendance rate as `listClasses` computes it. */
  function ClassRate(db: Db, classId: string): real {
    Percentage(PresentOver(LiveSessions(db.sessions, classId), db.records),
               TotalOver(LiveSessions(db.sessions, classId), db.records))
  }

  /** A listing entry carries its class's managers and attendance rate. */
  predicate Describes(db: Db, v: ClassView) {
    v.managers == ClassManagers(db, v.cls.id) && v.attendancePercentage == ClassRate(db, v.cls.id)
  }

  /** One entry of the `classes.map` of `listClasses`. */
  method Describe(db: Db, cls: ClassRow) returns (v: ClassView)
    ensures v.cls == cls && Describes(db, v)
  {
    var total, present := AttendanceStats(db, cls.id);
    v := ClassView(cls, ClassManagers(db, cls.id), Percentage(present, total));
  }

  /** The `classes.map` of `listClasses`: one entry per class, in the given order. */
  method DescribeAll(db: Db, classes: seq<ClassRow>) returns (r: seq<ClassView>)
    ensures Classes(r) == classes
    ensures forall i :: 0 <= i < |r| ==> Describes(db, r[i])
  {
    r := [];
    var i := 0;
    while i < |classes|
      invariant 0 <= i <= |classes|
      invariant |r| == i
      invariant forall k :: 0 <= k < i ==> r[k].cls == classes[k] && Describes(db, r[k])
    {
      var v := Describe(db, classes[i]);
      r := r + [v];
      i := i + 1;
    }
    assert forall k :: 0 <= k < |r| ==> Classes(r)[k] == classes[k];
  }

  /** `listClasses`: every class that is not deleted, exactly once, ordered by name, each
      with its managers and the share of present records among its live sessions' live
      records, a rate between zero and one. */
  method ListClasses(db: Db) returns (r: seq<ClassView>)
    ensures multiset(Classes(r)) == multiset(LiveClasses(db.classes))
    ensures forall c :: c in Classes(r) <==> c in db.classes && !c.isDeleted
    ensures SortedByName(Classes(r))
    ensures forall i :: 0 <= i < |r| ==> Describes(db, r[i])
    ensures forall i :: 0 <= i < |r| ==> 0.0 <= r[i].attendancePercentage <= 1.0
  {
    var sorted := SortByName(LiveClasses(db.classes));
    r := DescribeAll(db, sorted);
    SortByNameSorted(LiveClasses(db.classes));
    SameElements(Classes(r), LiveClasses(db.classes));
    forall k | 0 <= k < |r|
      ensures 0.0 <= r[k].attendancePercentage <= 1.0
    {
      RateBounded(db, r[k].cls.id);
    }
  }

  /** A class's attendance rate lies between zero and one. */
  lemma RateBounded(db: Db, classId: string)
    ensures 0.0 <= ClassRate(db, classId) <= 1.0
  {
    var ss := LiveSessions(db.sessions, classId);
    PresentAtMostTotal(ss, db.records);
    PercentageMeaning(PresentOver(ss, db.records), TotalOver(ss, db.records));
  }

  lemma SameElements<T>(a: seq<T>, b: seq<T>)
    requires multiset(a) == multiset(b)
    ensures forall x :: x in a <==> x in b
  {
    forall x
      ensures x in a <==> x in b
    {
      assert x in a <==> x in multiset(a);
      assert x in b <==> x in multiset(b);
    }
  }

  /** The class rows of a listing, in order. */
  function Classes(vs: seq<ClassView>): (r: seq<ClassRow>)
    ensures |r| == |vs|
    ensures forall i :: 0 <= i < |vs| ==> r[i] == vs[i].cls
  {
    seq(|vs|, i requires 0 <= i < |vs| => vs[i].cls)
  }

  // ---------------------------------------------------------------- writes

  predicate ClassIdTaken(db: Db, id: string) {
    exists c :: c in db.classes && c.id == id
  }

  /** `createClass`: a name is required; the new row is live and carries the given grade.
      `newId` is the identifier the database generates; a clash is the unique-constraint
      failure that the handler's `catch` turns into a 500. */
  function CreateClass(db: Db, name: Option<string>, grade: Option<string>, newId: string)
    : (r: (Db, Reply<ClassRow>))
    ensures Missing(name) ==> r == (db, Failure(400, "Class name required"))
    ensures !Missing(name) && ClassIdTaken(db, newId) ==> r == (db, Failure(500, ServerError))
    ensures !Missing(name) && !ClassIdTaken(db, newId) ==>
      && r.1 == Success(201, ClassRow(newId, name.value, grade, false))
      && r.0 == db.(classes := db.classes + [r.1.value])
  {
    if Missing(name) then (db, Failure(400, "Class name required"))
    else if ClassIdTaken(db, newId) then (db, Failure(500, ServerError))
    else
      var row := ClassRow(newId, name.value, grade, false);
      (db.(classes := db.classes + [row]), Success(201, row))
  }

  /** A class that was just created is among the live classes `listClasses` returns. */
  lemma CreatedClassIsListed(db: Db, name: Option<string>, grade: Option<string>, newId: string)
    requires CreateClass(db, name, grade, newId).1.Success?
    ensures var (db2, reply) := CreateClass(db, name, grade, newId);
      reply.value in LiveClasses(db2.classes) && reply.value.name == name.value
  {
  }

  predicate ClassExists(db: Db, id: string) {
    exists c :: c in db.classes && c.id == id
  }

  predicate UserExists(db: Db, id: string) {
    exists u :: u in db.users && u.id == id
  }

  /** `assignManager`. Any existing row for the pair, even a soft-deleted one, is a conflict;
      a class or user that does not exist fails the foreign key and ends in the 500 branch. */
  function AssignManager(db: Db, classId: Option<string>, userId: Option<string>)
    : (r: (Db, Reply<ManagerLink>))
    ensures Missing(classId) || Missing(userId) ==> r == (db, Failure(400, "Class ID and User ID required"))
    ensures r.1.Failure? ==> r.0 == db
    ensures r.1.Success? <==>
      && !Missing(classId) && !Missing(userId)
      && FindLink(db.links, classId.value, userId.value).None?
      && ClassExists(db, classId.value) && UserExists(db, userId.value)
    ensures r.1.Success? ==>
      && r.1 == Success(201, ManagerLink(classId.value, userId.value, false))
      && r.0 == db.(links := db.links + [r.1.value])
    ensures !Missing(classId) && !Missing(userId) && FindLink(db.links, classId.value, userId.value).Some? ==>
      r.1 == Failure(409, "User is already a manager of this class")
  {
    if Missing(classId) || Missing(userId) then (db, Failure(400, "Class ID and User ID required"))
    else if FindLink(db.links, classId.value, userId.value).Some? then
      (db, Failure(409, "User is already a manager of this class"))
    else if !ClassExists(db, classId.value) || !UserExists(db, userId.value) then
      (db, Failure(500, ServerError))
    else
      var link := ManagerLink(classId.value, userId.value, false);
      (db.(links := db.links + [link]), Success(201, link))
  }

  /** Every row whose key is not (classId, userId): the table after `classManager.delete`. */
  function RemoveLink(links: seq<ManagerLink>, classId: string, userId: string): (r: seq<ManagerLink>)
    ensures forall m :: m in r <==> m in links && (m.classId != classId || m.userId != userId)
    ensures |r| <= |links|
  {
    if links == [] then []
    else
      (if links[0].classId == classId && links[0].userId == userId then [] else [links[0]])
      + RemoveLink(links[1..], classId, userId)
  }

  /** `removeManager`. Deleting a pair that has no row is Prisma's record-not-found error,
      answered with a 500. */
  function RemoveManager(db: Db, classId: Option<string>, userId: Option<string>): (r: (Db, Reply<()>))
    ensures Missing(classId) || Missing(userId) ==> r == (db, Failure(400, "Class ID and User ID required"))
    ensures r.1.Failure? ==> r.0 == db
    ensures r.1.Success? <==>
      !Missing(classId) && !Missing(userId) && FindLink(db.links, classId.value, userId.value).Some?
    ensures r.1.Success? ==>
      && r.1.status == 200
      && r.0 == db.(links := RemoveLink(db.links, classId.value, userId.value))
      && FindLink(r.0.links, classId.value, userId.value).None?
  {
    if Missing(classId) || Missing(userId) then (db, Failure(400, "Class ID and User ID required"))
    else if FindLink(db.links, classId.value, userId.value).None? then (db, Failure(500, ServerError))
    else (db.(links := RemoveLink(db.links, classId.value, userId.value)), Success(200, ()))
  }

  lemma {:induction false} RemoveAbsentLink(links: seq<ManagerLink>, classId: string, userId: string)
    requires FindLink(links, classId, userId).None?
    ensures RemoveLink(links, classId, userId) == links
  {
    if links != [] {
      RemoveAbsentLink(links[1..], classId, userId);
      assert links == [links[0]] + links[1..];
    }
  }

  lemma {:induction false} RemoveLinkAppend(links: seq<ManagerLink>, extra: seq<ManagerLink>, classId: string, userId: string)
    ensures RemoveLink(links + extra, classId, userId)
         == RemoveLink(links, classId, userId) + RemoveLink(extra, classId, userId)
  {
    if links != [] {
      assert (links + extra)[1..] == links[1..] + extra;
      RemoveLinkAppend(links[1..], extra, classId, userId);
    } else {
      assert links + extra == extra;
    }
  }

  /** Assigning a manager and then removing them leaves the link table as it was. */
  lemma AssignThenRemoveRestores(db: Db, classId: Option<string>, userId: Option<string>)
    requires AssignManager(db, classId, userId).1.Success?
    ensures var db2 := AssignManager(db, classId, userId).0;
      && RemoveManager(db2, classId, userId).1.Success?
      && RemoveManager(db2, classId, userId).0 == db
  {
    var c, u := classId.value, userId.value;
    var link := ManagerLink(c, u, false);
    var db2 := AssignManager(db, classId, userId).0;
    assert db2.links == db.links + [link];
    assert link in db2.links;
    RemoveLinkAppend(db.links, [link], c, u);
    RemoveAbsentLink(db.links, c, u);
    assert RemoveLink([link], c, u) == [];
  }

  /** A second assignment of the same pair is always a conflict. */
  lemma AssignTwiceConflicts(db: Db, classId: Option<string>, userId: Option<string>)
    requires AssignManager(db, classId, userId).1.Success?
    ensures AssignManager(AssignManager(db, classId, userId).0, classId, userId).1
         == Failure(409, "User is already a manager of this class")
  {
    var link := ManagerLink(classId.value, userId.value, false);
    assert link in AssignManager(db, classId, userId).0.links;
  }

  /** Assignment keeps the link table's composite key unique. */
  lemma AssignKeepsLinksUnique(db: Db, classId: Option<string>, userId: Option<string>)
    requires UniqueLinks(db.links)
    ensures UniqueLinks(AssignManager(db, classId, userId).0.links)
  {
    var r := AssignManager(db, classId, userId);
    if r.1.Success? {
      var links := r.0.links;
      forall i, j | 0 <= i < j < |links|
        ensures links[i].classId != links[j].classId || links[i].userId != links[j].userId
      {
        if j == |links| - 1 {
          assert links[i] in db.links;
        }
      }
    }
  }

  /** `getClassManagers`: every link row of the class, soft-deleted ones included, with its user. */
  function GetClassManagers(db: Db, classId: Option<string>): (r: Reply<seq<UserSummary>>)
    ensures Missing(classId) <==> r == Failure(400, "Class ID required")
    ensures r.Success? ==> r.status == 200 && r.value == ClassManagers(db, classId.value)
    ensures r.Success? ==> forall x :: x in r.value ==>
      exists u :: u in db.users && x == Summary(u) && AmongRows(ManagerRows(db.links, classId.value), u.id)
    ensures r.Success? ==> var rows := ManagerRows(db.links, classId.value);
      forall j :: 0 <= j < |rows| && FindUser(db.users, rows[j].userId).Some? ==>
        Summary(FindUser(db.users, rows[j].userId).value) in r.value
    ensures r.Success? ==> var rows := ManagerRows(db.links, classId.value);
      (forall j :: 0 <= j < |rows| ==> FindUser(db.users, rows[j].userId).Some?) ==>
        && |r.value| == |rows|
        && forall j :: 0 <= j < |rows| ==> r.value[j] == Summary(FindUser(db.users, rows[j].userId).value)
  {
    if Missing(classId) then Failure(400, "Class ID required")
    else
      JoinUsersComplete(db.users, ManagerRows(db.links, classId.value));
      JoinUsersInOrder(db.users, ManagerRows(db.links, classId.value));
      Success(200, ClassManagers(db, classId.value))
  }
}

=== FILE: http.dfy ===
/** The shape of an Express handler's answer: a status code and either the JSON body of a
    success or the `message` of a failure. A rejected promise caught by a handler's
    `catch` is the 500 failure with message "Server error". */
module Http {
  import opened Wrappers

  /** JavaScript `!x` on an optional string field of a request: absent or empty. */
  predicate Missing(x: Option<string>) {
    x.None? || x.value == ""
  }

  datatype Reply<T> =
    | Success(status: nat, value: T)
    | Failure(status: nat, message: string)
  {
    function Status(): nat {
      match this
      case Success(s, _) => s
      case Failure(s, _) => s
    }
  }

  const ServerError := "Server error"
}

=== FILE: jobs.dfy ===
/** The scheduled jobs: the daily birthday reminders (morning for today's birthdays,
    evening for tomorrow's) and the daily inactive-student check. Each job produces the
    `notifyUser` calls it makes, in order; the clock is a parameter. */
module Jobs {
  import opened Wrappers
  import opened Values
  import opened Strings
  import opened Schema
  import opened Notifications

  /** One `notifyUser(userId, title, body, data)` call. */
  datatype Call = Call(userId: string, title: string, body: string, data: map<string, string>)

  /** `user.managedClasses.map(cm => cm.classId)`: the classes of every link of the user,
      soft-deleted links included, in table order. */
  function LinkedClassIds(links: seq<ManagerLink>, userId: string): (r: seq<string>)
    ensures forall c :: c in r <==> exists m :: m in links && m.userId == userId && m.classId == c
  {
    if links == [] then []
    else
      assert forall m :: m in links <==> m == links[0] || m in links[1..];
      (if links[0].userId == userId then [links[0].classId] else []) + LinkedClassIds(links[1..], userId)
  }

  /** Applies `f` to every element, keeping the order. */
  function Map<A, B>(f: A -> B, xs: seq<A>): (r: seq<B>)
    ensures |r| == |xs|
    ensures forall i :: 0 <= i < |xs| ==> r[i] == f(xs[i])
  {
    if xs == [] then [] else [f(xs[0])] + Map(f, xs[1..])
  }

  lemma MapMembership<A, B>(f: A -> B, xs: seq<A>, y: B)
    ensures y in Map(f, xs) <==> exists x :: x in xs && y == f(x)
  {
    var r := Map(f, xs);
    if y in r {
      var i :| 0 <= i < |r| && r[i] == y;
      assert xs[i] in xs;
    }
    if exists x :: x in xs && y == f(x) {
      var x :| x in xs && y == f(x);
      var i :| 0 <= i < |xs| && xs[i] == x;
      assert r[i] == y;
    }
  }

  /** No element occurs twice. */
  ghost predicate Distinct<T>(s: seq<T>) {
    forall i, j :: 0 <= i < j < |s| ==> s[i] != s[j]
  }

  lemma DistinctAppend<T>(a: seq<T>, b: seq<T>)
    requires Distinct(a) && Distinct(b)
    requires forall x :: x in a ==> x !in b
    ensures Distinct(a + b)
  {
    forall i, j | 0 <= i < j < |a + b|
      ensures (a + b)[i] != (a + b)[j]
    {
      if i < |a| && j >= |a| {
        assert (a + b)[i] in a && (a + b)[j] == b[j - |a|];
      }
    }
  }

  lemma UniqueTail(students: seq<Student>)
    requires students != [] && UniqueStudentIds(students)
    ensures UniqueStudentIds(students[1..])
  {
    forall i, j | 0 <= i < j < |students| - 1
      ensures students[1..][i].id != students[1..][j].id
    {
      assert students[1..][i] == students[i + 1] && students[1..][j] == students[j + 1];
    }
  }

  /** A student query over a table with unique ids answers each student at most once: the
      head's id is not among the rows a query over the tail returns. */
  lemma UniqueCons(students: seq<Student>, rest: seq<Student>)
    requires students != [] && UniqueStudentIds(students) && UniqueStudentIds(rest)
    requires forall x :: x in rest ==> x in students[1..]
    ensures UniqueStudentIds([students[0]] + rest)
  {
    forall x | x in rest
      ensures x.id != students[0].id
    {
      var k :| 0 <= k < |students| - 1 && students[1..][k] == x;
      assert students[k + 1] == x;
    }
    forall i, j | 0 <= i < j < |rest| + 1
      ensures ([students[0]] + rest)[i].id != ([students[0]] + rest)[j].id
    {
      assert ([students[0]] + rest)[j] == rest[j - 1];
      if i > 0 {
        assert ([students[0]] + rest)[i] == rest[i - 1];
      } else {
        assert rest[j - 1] in rest;
      }
    }
  }

  /** One call per student: with unique student ids, the calls `f` makes for the students
      are pairwise distinct whenever each call names its student's id. */
  lemma MapCallsDistinct(f: Student -> Call, ss: seq<Student>, userId: string)
    requires UniqueStudentIds(ss)
    requires forall s :: f(s).userId == userId && "studentId" in f(s).data && f(s).data["studentId"] == s.id
    ensures Distinct(Map(f, ss))
    ensures forall c :: c in Map(f, ss) ==> c.userId == userId
  {
    var r := Map(f, ss);
    forall i, j | 0 <= i < j < |r|
      ensures r[i] != r[j]
    {
      assert r[i].data["studentId"] == ss[i].id;
      assert r[j].data["studentId"] == ss[j].id;
    }
  }

  /** With unique user ids, calls addressed to the first user are never among the calls to
      the others. */
  lemma OtherUsersCalls(users: seq<User>, head: seq<Call>, rest: seq<Call>)
    requires users != [] && UniqueUserIds(users)
    requires forall c :: c in head ==> c.userId == users[0].id
    requires forall c :: c in rest ==> exists u :: u in users[1..] && c.userId == u.id
    ensures forall c :: c in head ==> c !in rest
  {
    forall c | c in rest
      ensures c.userId != users[0].id
    {
      var u :| u in users[1..] && c.userId == u.id;
      var k :| 0 <= k < |users| - 1 && users[1..][k] == u;
      assert users[k + 1] == u;
    }
  }

  lemma UniqueUserTail(users: seq<User>)
    requires users != [] && UniqueUserIds(users)
    ensures UniqueUserIds(users[1..])
  {
    forall i, j | 0 <= i < j < |users| - 1
      ensures users[1..][i].id != users[1..][j].id
    {
      assert users[1..][i] == users[i + 1] && users[1..][j] == users[j + 1];
    }
  }

  // ---------------------------------------------------------------- birthdays

  /** The users the birthday check serves at this time of day: active, not deleted, servant
      or admin, with a preference row that has birthday reminders on and the matching
      morning/evening choice. */
  predicate BirthdayUser(u: User, isMorning: bool) {
    && u.isActive && !u.isDeleted
    && (u.role == Servant || u.role == Admin)
    && u.preference.Some?
    && BirthdayReminder in u.preference.value.enabled
    && u.preference.value.birthdayNotifyMorning == isMorning
  }

  /** `EXTRACT(MONTH FROM birthdate) = month AND EXTRACT(DAY FROM birthdate) = day`; a missing
      birthdate matches nothing. */
  predicate BornOn(s: Student, month: int, day: int) {
    s.birthdate.Some? && s.birthdate.value.month == month && s.birthdate.value.day == day
  }

  /** The raw query: live students of the given classes born on the given month and day. */
  function BirthdayStudents(students: seq<Student>, classIds: seq<string>, month: int, day: int): (r: seq<Student>)
    ensures forall s :: s in r <==> s in students && !s.isDeleted && s.classId in classIds && BornOn(s, month, day)
  {
    if students == [] then []
    else
      assert forall s :: s in students <==> s == students[0] || s in students[1..];
      var s := students[0];
      (if !s.isDeleted && s.classId in classIds && BornOn(s, month, day) then [s] else [])
      + BirthdayStudents(students[1..], classIds, month, day)
  }

  /** The query returns each student row at most once. */
  lemma {:induction false} BirthdayStudentsUnique(students: seq<Student>, classIds: seq<string>, month: int, day: int)
    requires UniqueStudentIds(students)
    ensures UniqueStudentIds(BirthdayStudents(students, classIds, month, day))
  {
    if students != [] {
      UniqueTail(students);
      BirthdayStudentsUnique(students[1..], classIds, month, day);
      var s := students[0];
      if !s.isDeleted && s.classId in classIds && BornOn(s, month, day) {
        UniqueCons(students, BirthdayStudents(students[1..], classIds, month, day));
      }
    }
  }

  function BirthdayTitle(isMorning: bool): string {
    if isMorning then "\U{1F389} Happy Birthday!" else "\U{1F382} Birthday Tomorrow"
  }

  function BirthdayBody(isMorning: bool, name: string): string {
    if isMorning then "Today is " + name + "'s birthday!" else name + " has a birthday tomorrow!"
  }

  function BirthdayCall(u: User, isMorning: bool, s: Student): Call {
    Call(u.id, BirthdayTitle(isMorning), BirthdayBody(isMorning, s.name),
         map["type" := "birthday", "studentId" := s.id])
  }

  /** The reminders for one user; a user without links is skipped. */
  function UserBirthdayCalls(db: Db, u: User, isMorning: bool, target: CalendarDate): seq<Call> {
    var classIds := LinkedClassIds(db.links, u.id);
    if |classIds| == 0 then []
    else Map((s: Student) => BirthdayCall(u, isMorning, s),
             BirthdayStudents(db.students, classIds, target.month, target.day))
  }

  /** A reminder goes to `u` about `s` when `u` is served at this time of day, has a link to
      the student's class, and the live student was born on the target day. */
  ghost predicate Reminds(db: Db, u: User, s: Student, isMorning: bool, target: CalendarDate) {
    && BirthdayUser(u, isMorning)
    && s in db.students && !s.isDeleted && BornOn(s, target.month, target.day)
    && exists m :: m in db.links && m.userId == u.id && m.classId == s.classId
  }

  function BirthdayCallsFrom(db: Db, users: seq<User>, isMorning: bool, target: CalendarDate): seq<Call> {
    if users == [] then []
    else
      (if BirthdayUser(users[0], isMorning) then UserBirthdayCalls(db, users[0], isMorning, target) else [])
      + BirthdayCallsFrom(db, users[1..], isMorning, target)
  }

  /** `checkBirthdays(isMorning)`: `today` and `tomorrow` are the dates of the clock reading;
      the morning run looks for today's birthdays and the evening run for tomorrow's. */
  function CheckBirthdays(db: Db, isMorning: bool, today: CalendarDate, tomorrow: CalendarDate): (r: seq<Call>)
    ensures forall c :: c in r <==>
      exists u, s :: u in db.users && Reminds(db, u, s, isMorning, if isMorning then today else tomorrow)
                     && c == BirthdayCall(u, isMorning, s)
    ensures UniqueUserIds(db.users) && UniqueStudentIds(db.students) ==>
      forall i, j :: 0 <= i < j < |r| ==> r[i] != r[j]
  {
    var target := if isMorning then today else tomorrow;
    var r := BirthdayCallsFrom(db, db.users, isMorning, target);
    BirthdayCallsDistinct(db, db.users, isMorning, target);
    assert forall c :: c in r <==>
      exists u, s :: u in db.users && Reminds(db, u, s, isMorning, target) && c == BirthdayCall(u, isMorning, s) by {
      forall c
        ensures c in r <==>
          exists u, s :: u in db.users && Reminds(db, u, s, isMorning, target) && c == BirthdayCall(u, isMorning, s)
      {
        BirthdayCallsExactly(db, db.users, isMorning, target, c);
      }
    }
    r
  }

  lemma UserBirthdayCallsMembership(db: Db, u: User, isMorning: bool, target: CalendarDate, c: Call)
    requires BirthdayUser(u, isMorning)
    ensures c in UserBirthdayCalls(db, u, isMorning, target) <==>
      exists s :: Reminds(db, u, s, isMorning, target) && c == BirthdayCall(u, isMorning, s)
  {
    var classIds := LinkedClassIds(db.links, u.id);
    var f := (s: Student) => BirthdayCall(u, isMorning, s);
    var ss := BirthdayStudents(db.students, classIds, target.month, target.day);
    if |classIds| != 0 {
      MapMembership(f, ss, c);
      if c in UserBirthdayCalls(db, u, isMorning, target) {
        var s :| s in ss && c == f(s);
        assert Reminds(db, u, s, isMorning, target);
      }
    }
  }

  /** Exactly who is reminded of what: a call is made for user `u` and student `s` exactly
      when `u` is served at this time of day, links to the student's class, and the live
      student's birthday is today (morning run) or tomorrow (evening run). */
  lemma {:induction false} BirthdayCallsExactly(db: Db, users: seq<User>, isMorning: bool, target: CalendarDate, c: Call)
    ensures c in BirthdayCallsFrom(db, users, isMorning, target) <==>
      exists u, s :: u in users && Reminds(db, u, s, isMorning, target) && c == BirthdayCall(u, isMorning, s)
  {
    if users != [] {
      BirthdayCallsExactly(db, users[1..], isMorning, target, c);
      var u0 := users[0];
      if BirthdayUser(u0, isMorning) {
        UserBirthdayCallsMembership(db, u0, isMorning, target, c);
      }
      if exists u, s :: u in users && Reminds(db, u, s, isMorning, target) && c == BirthdayCall(u, isMorning, s) {
        var u, s :| u in users && Reminds(db, u, s, isMorning, target) && c == BirthdayCall(u, isMorning, s);
        if u != u0 {
          assert u in users[1..];
        } else {
          assert c in UserBirthdayCalls(db, u0, isMorning, target);
        }
      }
    }
  }

  /** With unique user and student ids, no reminder is made twice. */
  lemma {:induction false} BirthdayCallsDistinct(db: Db, users: seq<User>, isMorning: bool, target: CalendarDate)
    ensures UniqueUserIds(users) && UniqueStudentIds(db.students) ==>
      Distinct(BirthdayCallsFrom(db, users, isMorning, target))
  {
    if users != [] && UniqueUserIds(users) && UniqueStudentIds(db.students) {
      var u := users[0];
      UniqueUserTail(users);
      BirthdayCallsDistinct(db, users[1..], isMorning, target);
      var head := if BirthdayUser(u, isMorning) then UserBirthdayCalls(db, u, isMorning, target) else [];
      var rest := BirthdayCallsFrom(db, users[1..], isMorning, target);
      if |LinkedClassIds(db.links, u.id)| != 0 {
        BirthdayStudentsUnique(db.students, LinkedClassIds(db.links, u.id), target.month, target.day);
        MapCallsDistinct((s: Student) => BirthdayCall(u, isMorning, s),
                         BirthdayStudents(db.students, LinkedClassIds(db.links, u.id), target.month, target.day), u.id);
      }
      forall c | c in rest
        ensures exists v :: v in users[1..] && c.userId == v.id
      {
        BirthdayCallsExactly(db, users[1..], isMorning, target, c);
      }
      OtherUsersCalls(users, head, rest);
      DistinctAppend(head, rest);
    }
  }

  /** Every reminder is addressed to an active, non-deleted user, so `notifyUser` delivers it
      exactly when that user has a token. */
  lemma BirthdayReminderDelivery(db: Db, isMorning: bool, today: CalendarDate, tomorrow: CalendarDate, c: Call)
    requires UniqueUserIds(db.users)
    requires c in CheckBirthdays(db, isMorning, today, tomorrow)
    ensures NotifyUser(db.users, c.userId, c.title, c.body, c.data).Some? <==>
      exists u :: u in db.users && u.id == c.userId && HasToken(u)
  {
    var target := if isMorning then today else tomorrow;
    BirthdayCallsExactly(db, db.users, isMorning, target, c);
    var u, s :| u in db.users && Reminds(db, u, s, isMorning, target) && c == BirthdayCall(u, isMorning, s);
    FindUniqueUser(db.users, u);
  }

  lemma FindUniqueUser(users: seq<User>, u: User)
    requires UniqueUserIds(users) && u in users
    ensures FindUser(users, u.id) == Some(u)
  {
    var f := FindUser(users, u.id).value;
    var i :| 0 <= i < |users| && users[i] == u;
    var j :| 0 <= j < |users| && users[j] == f;
    assert i == j;
  }

  // ---------------------------------------------------------------- inactive students

  const DefaultThresholdDays := 14
  const MillisPerDay := 86_400_000

  /** The users the inactive check serves: active, not deleted, any role, with a preference
      row that has inactive-student alerts on. */
  predicate InactiveCheckUser(u: User) {
    u.isActive && !u.isDeleted && u.preference.Some? && InactiveStudent in u.preference.value.enabled
  }

  /** `inactiveThresholdDays || 14`: an absent or zero threshold is 14 days. */
  function ThresholdDays(u: User): (d: int)
    ensures d != 0
    ensures u.preference.None? || u.preference.value.inactiveThresholdDays in {None, Some(0)} ==>
            d == DefaultThresholdDays
    ensures u.preference.Some? && u.preference.value.inactiveThresholdDays.Some?
            && u.preference.value.inactiveThresholdDays.value != 0
            ==> d == u.preference.value.inactiveThresholdDays.value
  {
    match u.preference
    case None => DefaultThresholdDays
    case Some(p) =>
      match p.inactiveThresholdDays
      case None => DefaultThresholdDays
      case Some(n) => if n == 0 then DefaultThresholdDays else n
  }

  /** `thresholdDate`: the clock reading moved back by the threshold, a day taken as 24 hours. */
  function Cutoff(now: Time, days: int): Time {
    now - days * MillisPerDay
  }

  /** `findUnique` of a session by id. */
  function FindSession(sessions: seq<Session>, id: string): (r: Option<Session>)
    ensures r.Some? ==> r.value in sessions && r.value.id == id
    ensures r.None? ==> forall x :: x in sessions ==> x.id != id
  {
    if sessions == [] then None
    else if sessions[0].id == id then Some(sessions[0])
    else FindSession(sessions[1..], id)
  }

  /** One of the student's attendance records, deleted or not, whose session is dated on or
      after the cutoff. */
  predicate AttendedSince(db: Db, s: Student, cutoff: Time) {
    exists r :: r in db.records && r.studentId == s.id
      && FindSession(db.sessions, r.sessionId).Some?
      && FindSession(db.sessions, r.sessionId).value.date >= cutoff
  }

  /** The student query: live students of the given classes with no attendance on or after
      the cutoff, in table order. */
  function InactiveStudents(db: Db, students: seq<Student>, classIds: seq<string>, cutoff: Time): (r: seq<Student>)
    ensures forall s :: s in r <==>
      s in students && s.classId in classIds && !s.isDeleted && !AttendedSince(db, s, cutoff)
  {
    if students == [] then []
    else
      assert forall s :: s in students <==> s == students[0] || s in students[1..];
      var s := students[0];
      (if s.classId in classIds && !s.isDeleted && !AttendedSince(db, s, cutoff) then [s] else [])
      + InactiveStudents(db, students[1..], classIds, cutoff)
  }

  /** The query returns each student row at most once. */
  lemma {:induction false} InactiveStudentsUnique(db: Db, students: seq<Student>, classIds: seq<string>, cutoff: Time)
    requires UniqueStudentIds(students)
    ensures UniqueStudentIds(InactiveStudents(db, students, classIds, cutoff))
  {
    if students != [] {
      UniqueTail(students);
      InactiveStudentsUnique(db, students[1..], classIds, cutoff);
      var s := students[0];
      if s.classId in classIds && !s.isDeleted && !AttendedSince(db, s, cutoff) {
        UniqueCons(students, InactiveStudents(db, students[1..], classIds, cutoff));
      }
    }
  }

  function InactiveCall(u: User, days: int, s: Student): Call {
    Call(u.id, "\U{26A0}\U{FE0F} Check-in Needed",
         s.name + " hasn't attended in " + IntToString(days) + " days",
         map["type" := "inactive", "studentId" := s.id])
  }

  function UserInactiveCalls(db: Db, u: User, now: Time): seq<Call> {
    var classIds := LinkedClassIds(db.links, u.id);
    if |classIds| == 0 then []
    else
      var days := ThresholdDays(u);
      Map((s: Student) => InactiveCall(u, days, s), InactiveStudents(db, db.students, classIds, Cutoff(now, days)))
  }

  function InactiveCallsFrom(db: Db, users: seq<User>, now: Time): seq<Call> {
    if users == [] then []
    else
      (if InactiveCheckUser(users[0]) then UserInactiveCalls(db, users[0], now) else [])
      + InactiveCallsFrom(db, users[1..], now)
  }

  /** `checkInactiveStudents`, with `now` the clock reading. */
  function CheckInactiveStudents(db: Db, now: Time): (r: seq<Call>)
    ensures forall c :: c in r <==>
      exists u, s :: u in db.users && Alerts(db, u, s, now) && c == InactiveCall(u, ThresholdDays(u), s)
    ensures UniqueUserIds(db.users) && UniqueStudentIds(db.students) ==>
      forall i, j :: 0 <= i < j < |r| ==> r[i] != r[j]
  {
    var r := InactiveCallsFrom(db, db.users, now);
    InactiveCallsDistinct(db, db.users, now);
    assert forall c :: c in r <==>
      exists u, s :: u in db.users && Alerts(db, u, s, now) && c == InactiveCall(u, ThresholdDays(u), s) by {
      forall c
        ensures c in r <==>
          exists u, s :: u in db.users && Alerts(db, u, s, now) && c == InactiveCall(u, ThresholdDays(u), s)
      {
        InactiveCallsExactly(db, db.users, now, c);
      }
    }
    r
  }

  /** An alert goes to `u` about `s` when `u` is served, has a link to the student's class,
      and the live student has no attendance on or after `u`'s cutoff. */
  ghost predicate Alerts(db: Db, u: User, s: Student, now: Time) {
    && InactiveCheckUser(u)
    && s in db.students && !s.isDeleted
    && (exists m :: m in db.links && m.userId == u.id && m.classId == s.classId)
    && !AttendedSince(db, s, Cutoff(now, ThresholdDays(u)))
  }

  lemma UserInactiveCallsMembership(db: Db, u: User, now: Time, c: Call)
    requires InactiveCheckUser(u)
    ensures c in UserInactiveCalls(db, u, now) <==>
      exists s :: Alerts(db, u, s, now) && c == InactiveCall(u, ThresholdDays(u), s)
  {
    var classIds := LinkedClassIds(db.links, u.id);
    var days := ThresholdDays(u);
    var f := (s: Student) => InactiveCall(u, days, s);
    var ss := InactiveStudents(db, db.students, classIds, Cutoff(now, days));
    if |classIds| != 0 {
      MapMembership(f, ss, c);
      if c in UserInactiveCalls(db, u, now) {
        var s :| s in ss && c == f(s);
        assert Alerts(db, u, s, now);
      }
    }
  }

  /** Exactly who is alerted about whom: a call is made for user `u` and student `s` exactly
      when `u` is served, links to the student's class, and the live student has no
      attendance record whose session falls on or after `u`'s cutoff. */
  lemma {:induction false} InactiveCallsExactly(db: Db, users: seq<User>, now: Time, c: Call)
    ensures c in InactiveCallsFrom(db, users, now) <==>
      exists u, s :: u in users && Alerts(db, u, s, now) && c == InactiveCall(u, ThresholdDays(u), s)
  {
    if users != [] {
      InactiveCallsExactly(db, users[1..], now, c);
      var u0 := users[0];
      if InactiveCheckUser(u0) {
        UserInactiveCallsMembership(db, u0, now, c);
      }
      if exists u, s :: u in users && Alerts(db, u, s, now) && c == InactiveCall(u, ThresholdDays(u), s) {
        var u, s :| u in users && Alerts(db, u, s, now) && c == InactiveCall(u, ThresholdDays(u), s);
        if u != u0 {
          assert u in users[1..];
        } else {
          assert c in UserInactiveCalls(db, u0, now);
        }
      }
    }
  }

  /** With unique user and student ids, no alert is made twice. */
  lemma {:induction false} InactiveCallsDistinct(db: Db, users: seq<User>, now: Time)
    ensures UniqueUserIds(users) && UniqueStudentIds(db.students) ==> Distinct(InactiveCallsFrom(db, users, now))
  {
    if users != [] && UniqueUserIds(users) && UniqueStudentIds(db.students) {
      var u := users[0];
      UniqueUserTail(users);
      InactiveCallsDistinct(db, users[1..], now);
      var head := if InactiveCheckUser(u) then UserInactiveCalls(db, u, now) else [];
      var rest := InactiveCallsFrom(db, users[1..], now);
      if |LinkedClassIds(db.links, u.id)| != 0 {
        var days := ThresholdDays(u);
        InactiveStudentsUnique(db, db.students, LinkedClassIds(db.links, u.id), Cutoff(now, days));
        MapCallsDistinct((s: Student) => InactiveCall(u, days, s),
                         InactiveStudents(db, db.students, LinkedClassIds(db.links, u.id), Cutoff(now, days)), u.id);
      }
      forall c | c in rest
        ensures exists v :: v in users[1..] && c.userId == v.id
      {
        InactiveCallsExactly(db, users[1..], now, c);
      }
      OtherUsersCalls(users, head, rest);
      DistinctAppend(head, rest);
    }
  }

  /** A student with an attendance record in a session dated on or after a user's own
      cutoff is never reported to that user: no inactive call to the user names the student. */
  lemma RecentAttendanceSilences(db: Db, now: Time, u: User, c: Call, r: AttendanceRecord, s: Student)
    requires UniqueUserIds(db.users) && u in db.users
    requires c in CheckInactiveStudents(db, now) && c.userId == u.id
    requires r in db.records && r.studentId == s.id
    requires FindSession(db.sessions, r.sessionId).Some?
    requires FindSession(db.sessions, r.sessionId).value.date >= Cutoff(now, ThresholdDays(u))
    ensures c.data != map["type" := "inactive", "studentId" := s.id]
  {
    InactiveCallsExactly(db, db.users, now, c);
    var u', s' :| u' in db.users && Alerts(db, u', s', now) && c == InactiveCall(u', ThresholdDays(u'), s');
    var i :| 0 <= i < |db.users| && db.users[i] == u;
    var j :| 0 <= j < |db.users| && db.users[j] == u';
    assert i == j;
    if c.data == map["type" := "inactive", "studentId" := s.id] {
      assert s'.id == c.data["studentId"] == s.id;
      assert AttendedSince(db, s', Cutoff(now, ThresholdDays(u)));
      assert false;
    }
  }

  // ---------------------------------------------------------------- schedule

  /** The job a cron tick starts. */
  datatype Job = BirthdayCheck(isMorning: bool) | InactiveCheck

  /** 08:00 and 20:00 as minutes of the day. */
  const MorningMinute := 8 * 60
  const EveningMinute := 20 * 60
  const MinutesPerDay := 24 * 60

  /** `initScheduledJobs`: `'0 8 * * *'` starts the morning birthday check and the inactive
      check, `'0 20 * * *'` the evening birthday check; other minutes start nothing. */
  function JobsAt(minute: nat): (r: seq<Job>)
    ensures r != [] <==> minute == MorningMinute || minute == EveningMinute
    ensures BirthdayCheck(true) in r <==> minute == MorningMinute
    ensures InactiveCheck in r <==> minute == MorningMinute
    ensures BirthdayCheck(false) in r <==> minute == EveningMinute
    ensures minute == MorningMinute ==> r[0] == BirthdayCheck(true)
  {
    if minute == MorningMinute then [BirthdayCheck(true), InactiveCheck]
    else if minute == EveningMinute then [BirthdayCheck(false)]
    else []
  }

  /** The jobs started during the minutes [from, to) of a day, in order. */
  function JobsBetween(from: nat, to: nat): seq<Job>
    decreases if to > from then to - from else 0
  {
    if from >= to then [] else JobsAt(from) + JobsBetween(from + 1, to)
  }

  lemma {:induction false} QuietStretch(from: nat, to: nat)
    requires from > EveningMinute || to <= MorningMinute || (from > MorningMinute && to <= EveningMinute)
    ensures JobsBetween(from, to) == []
    decreases if to > from then to - from else 0
  {
    if from < to {
      QuietStretch(from + 1, to);
    }
  }

  lemma {:induction false} JobsBetweenSplit(from: nat, mid: nat, to: nat)
    requires from <= mid <= to
    ensures JobsBetween(from, to) == JobsBetween(from, mid) + JobsBetween(mid, to)
    decreases if mid > from then mid - from else 0
  {
    if from < mid {
      JobsBetweenSplit(from + 1, mid, to);
    }
  }

  /** Over one day the schedule runs the morning birthday check, then the inactive check,
      then the evening birthday check, each exactly once. */
  lemma DailySchedule()
    ensures JobsBetween(0, MinutesPerDay) == [BirthdayCheck(true), InactiveCheck, BirthdayCheck(false)]
  {
    JobsBetweenSplit(0, MorningMinute, MinutesPerDay);
    JobsBetweenSplit(MorningMinute, MorningMinute + 1, MinutesPerDay);
    JobsBetweenSplit(MorningMinute + 1, EveningMinute, MinutesPerDay);
    JobsBetweenSplit(EveningMinute, EveningMinute + 1, MinutesPerDay);
    QuietStretch(0, MorningMinute);
    QuietStretch(MorningMinute + 1, EveningMinute);
    QuietStretch(EveningMinute + 1, MinutesPerDay);
    assert JobsBetween(MorningMinute, MorningMinute + 1) == JobsAt(MorningMinute);
    assert JobsBetween(EveningMinute, EveningMinute + 1) == JobsAt(EveningMinute);
  }
}

=== FILE: manager_links.dfy ===
/** The authorization helpers over the class-manager links: which classes a user manages,
    and whether a user manages a given class. Both ignore soft-deleted links. */
module ManagerLinks {
  import opened Wrappers
  import opened Schema
  import opened Http
  import Classes

  /** `getUserManagedClassIds`: the class of every live link of the user, in table order. */
  function ManagedClassIds(links: seq<ManagerLink>, userId: string): (r: seq<string>)
    ensures forall c :: c in r <==> exists m :: m in links && m.userId == userId && !m.isDeleted && m.classId == c
  {
    if links == [] then []
    else
      assert forall m :: m in links <==> m == links[0] || m in links[1..];
      var m := links[0];
      (if m.userId == userId && !m.isDeleted then [m.classId] else []) + ManagedClassIds(links[1..], userId)
  }

  /** `isClassManager`: the link row for the pair exists and is not soft-deleted. */
  function IsClassManager(links: seq<ManagerLink>, userId: string, classId: string): (r: bool)
    ensures r ==> exists m :: m in links && m.userId == userId && m.classId == classId && !m.isDeleted
    ensures !r ==> FindLink(links, classId, userId).None? || FindLink(links, classId, userId).value.isDeleted
  {
    match FindLink(links, classId, userId)
    case None => false
    case Some(m) => !m.isDeleted
  }

  /** With the table's composite key unique, the two helpers agree: a user manages a class
      exactly when the class is among the user's managed class ids. */
  lemma IsClassManagerIffManaged(links: seq<ManagerLink>, userId: string, classId: string)
    requires UniqueLinks(links)
    ensures IsClassManager(links, userId, classId) <==> classId in ManagedClassIds(links, userId)
  {
    if classId in ManagedClassIds(links, userId) {
      var m :| m in links && m.userId == userId && !m.isDeleted && m.classId == classId;
      var f := FindLink(links, classId, userId).value;
      var i :| 0 <= i < |links| && links[i] == m;
      var j :| 0 <= j < |links| && links[j] == f;
      assert i == j;
    }
  }

  /** A successful assignment makes the user a manager of the class. */
  lemma AssignedUserManages(db: Db, classId: Option<string>, userId: Option<string>)
    requires Classes.AssignManager(db, classId, userId).1.Success?
    ensures IsClassManager(Classes.AssignManager(db, classId, userId).0.links, userId.value, classId.value)
  {
    var c, u := classId.value, userId.value;
    FindLinkAppended(db.links, ManagerLink(c, u, false));
  }

  lemma {:induction false} FindLinkAppended(links: seq<ManagerLink>, m: ManagerLink)
    requires FindLink(links, m.classId, m.userId).None?
    ensures FindLink(links + [m], m.classId, m.userId) == Some(m)
  {
    if links != [] {
      assert (links + [m])[1..] == links[1..] + [m];
      FindLinkAppended(links[1..], m);
    } else {
      assert links + [m] == [m];
    }
  }

  /** A successful removal leaves the user managing neither the class nor, in the list of
      managed classes, anything under that class id. */
  lemma RemovedUserNoLongerManages(db: Db, classId: Option<string>, userId: Option<string>)
    requires Classes.RemoveManager(db, classId, userId).1.Success?
    ensures var links := Classes.RemoveManager(db, classId, userId).0.links;
      && !IsClassManager(links, userId.value, classId.value)
      && classId.value !in ManagedClassIds(links, userId.value)
  {
  }
}

=== FILE: notifications.dfy ===
/** Recipient selection of the push-notification helpers (`notifyClassManagers`,
    `notifyAdmins`, `notifyUser`). Delivery itself (`sendDataNotification`) is a sink: the
    model returns the one message it would be handed, or None when it is not called. */
module Notifications {
  import opened Wrappers
  import opened Schema

  datatype Message = Message(tokens: seq<string>, title: string, body: string, data: map<string, string>)

  /** `if (tokens.length > 0) await sendDataNotification(tokens, title, body, data)`. */
  function Dispatch(tokens: seq<string>, title: string, body: string, data: map<string, string>): (r: Option<Message>)
    ensures r.Some? <==> |tokens| > 0
    ensures r.Some? ==> r.value == Message(tokens, title, body, data)
  {
    if |tokens| > 0 then Some(Message(tokens, title, body, data)) else None
  }

  /** The per-user checks every helper applies: not the sender, a token, an active account
      that is not deleted, and the kind not switched off. */
  predicate Reachable(u: User, kind: NotificationType, exclude: Option<string>) {
    Some(u.id) != exclude && HasToken(u) && u.isActive && !u.isDeleted && WantsType(u, kind)
  }

  /** `findMany({ where: { role: 'ADMIN', isActive: true, isDeleted: false } })`, per row. */
  predicate ActiveAdmin(u: User) {
    u.role == Admin && u.isActive && !u.isDeleted
  }

  /** The user a link row joins to (`include: { user }`). */
  ghost predicate JoinedUser(rows: seq<ManagerLink>, users: seq<User>, j: int, u: User) {
    0 <= j < |rows| && FindUser(users, rows[j].userId) == Some(u)
  }

  /** A user some link row of the class joins to. */
  ghost predicate JoinedToClass(db: Db, classId: string, u: User) {
    exists j :: JoinedUser(ManagerRows(db.links, classId), db.users, j, u)
  }

  function Tokens(us: seq<User>): (r: seq<string>)
    requires forall i :: 0 <= i < |us| ==> HasToken(us[i])
    ensures |r| == |us|
    ensures forall i :: 0 <= i < |us| ==> us[i].fcmToken == Some(r[i])
  {
    if us == [] then []
    else
      assert HasToken(us[0]);
      [us[0].fcmToken.value] + Tokens(us[1..])
  }

  /** The first loop of `notifyClassManagers`: the joined users of the class's link rows
      that pass every check, in row order. */
  method ManagerRecipients(db: Db, classId: string, kind: NotificationType, exclude: Option<string>)
    returns (picked: seq<User>)
    ensures forall u :: u in picked ==> Reachable(u, kind, exclude)
    ensures forall u :: u in picked <==> JoinedToClass(db, classId, u) && Reachable(u, kind, exclude)
    ensures |picked| <= |ManagerRows(db.links, classId)|
  {
    var rows := ManagerRows(db.links, classId);
    picked := [];
    var i := 0;
    while i < |rows|
      invariant 0 <= i <= |rows|
      invariant |picked| <= i
      invariant forall u :: u in picked <==>
        (exists j :: j < i && JoinedUser(rows, db.users, j, u)) && Reachable(u, kind, exclude)
    {
      var user := FindUser(db.users, rows[i].userId);
      if user.Some? && Reachable(user.value, kind, exclude) {
        assert JoinedUser(rows, db.users, i, user.value);
        picked := picked + [user.value];
      }
      i := i + 1;
    }
    forall u | JoinedToClass(db, classId, u) && Reachable(u, kind, exclude)
      ensures u in picked
    {
      var j :| JoinedUser(rows, db.users, j, u);
      assert j < i;
    }
    forall u | u in picked
      ensures JoinedToClass(db, classId, u)
    {
      var j :| j < i && JoinedUser(rows, db.users, j, u);
    }
  }

  /** The admin loop of `notifyClassManagers`: active admins, in table order, that are not
      among the class's link rows and pass every check. */
  method AdminRecipients(db: Db, rows: seq<ManagerLink>, kind: NotificationType, exclude: Option<string>)
    returns (picked: seq<User>)
    ensures forall u :: u in picked <==>
      u in db.users && ActiveAdmin(u) && !AmongRows(rows, u.id) && Reachable(u, kind, exclude)
    ensures |picked| <= |db.users|
  {
    picked := [];
    var i := 0;
    while i < |db.users|
      invariant 0 <= i <= |db.users|
      invariant |picked| <= i
      invariant forall u :: u in picked <==>
        u in db.users[..i] && ActiveAdmin(u) && !AmongRows(rows, u.id) && Reachable(u, kind, exclude)
    {
      var u := db.users[i];
      assert db.users[..i + 1] == db.users[..i] + [u];
      if ActiveAdmin(u) && !AmongRows(rows, u.id) && Reachable(u, kind, exclude) {
        picked := picked + [u];
      }
      i := i + 1;
    }
    assert db.users[..i] == db.users;
  }

  /** `notifyClassManagers`: manager tokens first, then admin tokens; the excluded sender is
      never among them, and an admin who has a link row for the class is never added by the
      admin loop. One message carries the whole list, and only when it is not empty. */
  method NotifyClassManagers(db: Db, classId: string, kind: NotificationType, title: string, body: string,
                             data: map<string, string>, exclude: Option<string>)
    returns (fromManagers: seq<User>, fromAdmins: seq<User>, sent: Option<Message>)
    ensures forall u :: u in fromManagers + fromAdmins ==> Reachable(u, kind, exclude)
    ensures forall i :: 0 <= i < |fromManagers + fromAdmins| ==> HasToken((fromManagers + fromAdmins)[i])
    ensures forall u :: u in fromManagers <==> JoinedToClass(db, classId, u) && Reachable(u, kind, exclude)
    ensures forall u :: u in fromManagers ==> AmongRows(ManagerRows(db.links, classId), u.id)
    ensures forall u :: u in fromAdmins ==> ActiveAdmin(u) && !AmongRows(ManagerRows(db.links, classId), u.id)
    ensures forall u :: u in fromAdmins <==>
      u in db.users && ActiveAdmin(u) && !AmongRows(ManagerRows(db.links, classId), u.id) && Reachable(u, kind, exclude)
    ensures sent.Some? <==> |fromManagers + fromAdmins| > 0
    ensures sent.Some? ==> sent.value == Message(Tokens(fromManagers + fromAdmins), title, body, data)
  {
    var rows := ManagerRows(db.links, classId);
    fromManagers := ManagerRecipients(db, classId, kind, exclude);
    forall u | u in fromManagers
      ensures AmongRows(rows, u.id)
    {
      var j :| JoinedUser(rows, db.users, j, u);
      assert rows[j] in rows;
    }
    fromAdmins := AdminRecipients(db, rows, kind, exclude);
    var all := fromManagers + fromAdmins;
    forall i | 0 <= i < |all|
      ensures HasToken(all[i])
    {
      assert all[i] in fromManagers || all[i] in fromAdmins;
    }
    sent := Dispatch(Tokens(fromManagers + fromAdmins), title, body, data);
  }

  /** `notifyAdmins`: the tokens of exactly the active, non-deleted admins that are not the
      sender, have a token and have not switched the kind off, in table order. */
  method NotifyAdmins(db: Db, kind: NotificationType, title: string, body: string,
                      data: map<string, string>, exclude: Option<string>)
    returns (picked: seq<User>, sent: Option<Message>)
    ensures forall u :: u in picked <==> u in db.users && ActiveAdmin(u) && Reachable(u, kind, exclude)
    ensures forall i :: 0 <= i < |picked| ==> HasToken(picked[i])
    ensures sent.Some? <==> |picked| > 0
    ensures sent.Some? ==> sent.value == Message(Tokens(picked), title, body, data)
  {
    picked := AdminRecipients(db, [], kind, exclude);
    assert forall i :: 0 <= i < |picked| ==> picked[i] in picked;
    sent := Dispatch(Tokens(picked), title, body, data);
  }

  /** `notifyUser`: one token, sent iff the user exists, has a token and an active,
      non-deleted account. No preference is consulted. */
  function NotifyUser(users: seq<User>, userId: string, title: string, body: string, data: map<string, string>)
    : (r: Option<Message>)
    ensures r.Some? <==>
      exists u :: u in users && FindUser(users, userId) == Some(u) && HasToken(u) && u.isActive && !u.isDeleted
    ensures r.Some? ==> r.value == Message([FindUser(users, userId).value.fcmToken.value], title, body, data)
  {
    match FindUser(users, userId)
    case None => None
    case Some(u) =>
      if HasToken(u) && u.isActive && !u.isDeleted then Some(Message([u.fcmToken.value], title, body, data))
      else None
  }
}

=== FILE: ordering.dfy ===
/** The dependency order of a push: `changes.sort((a, b) => pA - pB)` with the fixed
    priority table. `Array.prototype.sort` is stable, so the model is a stable insertion
    sort, and its contract says so: the output is ordered by priority and, priority by
    priority, lists the same changes in the same order as the input. */
module Ordering {
  import opened SyncTypes

  /** Priority for a change whose entity type is not in the table (`|| 99`). */
  const UnknownPriority: nat := 99

  /** The priority table: parents before children. */
  function Priority(entityType: string): (p: nat)
    ensures p in {1, 2, 3, 4, 5, UnknownPriority}
    ensures entityType == "CLASS" <==> p == 1
    ensures entityType == "USER" <==> p == 2
    ensures entityType == "STUDENT" <==> p == 3
    ensures entityType == "ATTENDANCE_SESSION" <==> p == 4
    ensures entityType == "ATTENDANCE" || entityType == "NOTE" <==> p == 5
  {
    match entityType
    case "CLASS" => 1
    case "USER" => 2
    case "STUDENT" => 3
    case "ATTENDANCE_SESSION" => 4
    case "ATTENDANCE" => 5
    case "NOTE" => 5
    case _ => UnknownPriority
  }

  function P(c: Change): nat {
    Priority(c.entityType)
  }

  /** Every token that names a table has a real tier; `USER` has one too but no table,
      and every other token sorts last. */
  lemma PriorityAndTables(entityType: string)
    ensures KnownEntityType(entityType) ==> Priority(entityType) <= 5
    ensures !KnownEntityType(entityType) && entityType != "USER" ==> Priority(entityType) == UnknownPriority
  {
  }

  ghost predicate Sorted(s: seq<Change>) {
    forall i, j :: 0 <= i < j < |s| ==> P(s[i]) <= P(s[j])
  }

  function Last(s: seq<Change>): Change
    requires s != []
  {
    s[|s| - 1]
  }

  function Init(s: seq<Change>): seq<Change>
    requires s != []
  {
    s[..|s| - 1]
  }

  /** The changes of one priority, in the order they occur. */
  function Tier(s: seq<Change>, p: nat): (r: seq<Change>)
  {
    if s == [] then []
    else Tier(Init(s), p) + (if P(Last(s)) == p then [Last(s)] else [])
  }

  lemma {:induction false} TierAppend(a: seq<Change>, b: seq<Change>, p: nat)
    ensures Tier(a + b, p) == Tier(a, p) + Tier(b, p)
    decreases |b|
  {
    if b == [] {
      assert a + b == a;
    } else {
      assert Init(a + b) == a + Init(b);
      assert Last(a + b) == Last(b);
      TierAppend(a, Init(b), p);
    }
  }

  /** Inserts `c` behind every change whose priority is at most its own. */
  function Insert(s: seq<Change>, c: Change): (r: seq<Change>)
    ensures multiset(r) == multiset(s) + multiset{c}
    ensures |r| == |s| + 1
    decreases |s|
  {
    if s == [] || P(Last(s)) <= P(c) then s + [c]
    else
      assert s == Init(s) + [Last(s)];
      Insert(Init(s), c) + [Last(s)]
  }

  lemma {:induction false} InsertSorted(s: seq<Change>, c: Change)
    requires Sorted(s)
    ensures Sorted(Insert(s, c))
    decreases |s|
  {
    if s == [] || P(Last(s)) <= P(c) {
      SortedSnoc(s, c);
    } else {
      var x := Last(s);
      assert s == Init(s) + [x];
      var front := Insert(Init(s), c);
      InsertSorted(Init(s), c);
      forall y | y in front
        ensures P(y) <= P(x)
      {
        assert y in multiset(front);
        if y != c {
          assert y in multiset(Init(s));
        }
      }
      SortedSnoc(front, x);
    }
  }

  /** A sorted sequence stays sorted when a change that ranks last is appended. */
  lemma SortedSnoc(s: seq<Change>, x: Change)
    requires Sorted(s)
    requires forall y :: y in s ==> P(y) <= P(x)
    ensures Sorted(s + [x])
  {
    forall i, j | 0 <= i < j < |s + [x]|
      ensures P((s + [x])[i]) <= P((s + [x])[j])
    {
      if j == |s| {
        assert (s + [x])[i] == s[i] && s[i] in s;
      }
    }
  }

  lemma TierSingle(x: Change, p: nat)
    ensures Tier([x], p) == (if P(x) == p then [x] else [])
  {
    assert Init([x]) == [];
  }

  /** Insertion adds `c` at the end of its own tier and leaves every other tier alone. */
  lemma {:induction false} InsertTier(s: seq<Change>, c: Change, p: nat)
    ensures Tier(Insert(s, c), p) == Tier(s, p) + (if P(c) == p then [c] else [])
    decreases |s|
  {
    TierSingle(c, p);
    if s == [] || P(Last(s)) <= P(c) {
      TierAppend(s, [c], p);
    } else {
      var x, init := Last(s), Init(s);
      assert s == init + [x];
      assert Insert(s, c) == Insert(init, c) + [x];
      InsertTier(init, c, p);
      TierPastHigher(Insert(init, c), init, x, c, p);
    }
  }

  /** If `front` has the tier of `init` plus `c`, appending a change of a higher priority
      than `c` to both keeps that relation. */
  lemma TierPastHigher(front: seq<Change>, init: seq<Change>, x: Change, c: Change, p: nat)
    requires P(c) < P(x)
    requires Tier(front, p) == Tier(init, p) + (if P(c) == p then [c] else [])
    ensures Tier(front + [x], p) == Tier(init + [x], p) + (if P(c) == p then [c] else [])
  {
    TierAppend(front, [x], p);
    TierAppend(init, [x], p);
    TierSingle(x, p);
    if P(c) == p {
      assert Tier([x], p) == [];
    } else {
      assert Tier(front, p) == Tier(init, p);
    }
  }

  /** The stable sort by priority: each prefix is sorted and the next change inserted.
      The result is ordered by priority and every tier keeps the input order. */
  function SortByPriority(cs: seq<Change>): (r: seq<Change>)
    ensures Sorted(r)
    ensures |r| == |cs|
    ensures multiset(r) == multiset(cs)
    ensures forall p :: Tier(r, p) == Tier(cs, p)
    decreases |cs|
  {
    if cs == [] then []
    else
      var front := SortByPriority(Init(cs));
      InsertStep(front, cs);
      Insert(front, Last(cs))
  }

  /** Inserting the last change of a batch into a sorted arrangement of the rest gives a
      sorted arrangement of the whole batch with the same tiers. */
  lemma InsertStep(front: seq<Change>, cs: seq<Change>)
    requires cs != []
    requires Sorted(front) && multiset(front) == multiset(Init(cs))
    requires forall p :: Tier(front, p) == Tier(Init(cs), p)
    ensures Sorted(Insert(front, Last(cs)))
    ensures multiset(Insert(front, Last(cs))) == multiset(cs)
    ensures forall p :: Tier(Insert(front, Last(cs)), p) == Tier(cs, p)
  {
    var init, c := Init(cs), Last(cs);
    InsertSorted(front, c);
    assert cs == init + [c];
    forall p
      ensures Tier(Insert(front, c), p) == Tier(cs, p)
    {
      InsertTier(front, c, p);
      TierAppend(init, [c], p);
      TierSingle(c, p);
    }
  }
}

=== FILE: pull.dfy ===
/** The pull half of the sync engine (`handlePull`): for each of the five synced tables,
    the rows whose `updatedAt` lies strictly after the checkpoint. There is no filter on
    `isDeleted` and no per-user scoping. */
module Pull {
  import opened Wrappers
  import opened Values
  import opened SyncTypes

  datatype PullResponse = PullResponse(
    serverTimestamp: Time,
    students: TableRows,
    attendanceSessions: TableRows,
    attendance: TableRows,
    notes: TableRows,
    classes: TableRows)

  /** `QueryError` is a checkpoint that does not parse: the query rejects the Invalid Date
      and, with no `catch` in the handler, no response is produced. */
  datatype PullOutcome = QueryError | Pulled(response: PullResponse)

  /** `since ? new Date(since) : new Date(0)`: an absent or empty checkpoint is the epoch. */
  function SinceDate(since: Option<string>, parse: DateParser): (r: Option<Time>)
    ensures since.None? || since == Some("") ==> r == Some(Epoch)
    ensures since.Some? && since.value != "" ==> r == parse(since.value)
  {
    match since
    case None => Some(Epoch)
    case Some(text) => if text == "" then Some(Epoch) else parse(text)
  }

  /** `where: { updatedAt: { gt: since } }` for one row. */
  predicate UpdatedAfter(row: Row, since: Time) {
    "updatedAt" in row && row["updatedAt"].VTime? && row["updatedAt"].t > since
  }

  /** `findMany({ where: { updatedAt: { gt: since } } })`: exactly the rows changed after
      the checkpoint, each as stored. */
  function ChangedSince(rows: TableRows, since: Time): (r: TableRows)
    ensures forall id :: id in r <==> id in rows && UpdatedAfter(rows[id], since)
    ensures forall id :: id in r ==> r[id] == rows[id]
  {
    map id | id in rows && UpdatedAfter(rows[id], since) :: rows[id]
  }

  /** `handlePull`. The server timestamp is the clock reading taken before any query, and
      every query reads the same store. */
  function HandlePull(s: Store, since: Option<string>, now: Time, parse: DateParser): (r: PullOutcome)
    ensures r.QueryError? <==> SinceDate(since, parse).None?
    ensures r.Pulled? ==> r.response.serverTimestamp == now
    ensures r.Pulled? ==>
      var t := SinceDate(since, parse).value;
      && r.response.students == ChangedSince(Rows(s, Students), t)
      && r.response.attendanceSessions == ChangedSince(Rows(s, AttendanceSessions), t)
      && r.response.attendance == ChangedSince(Rows(s, AttendanceRecords), t)
      && r.response.notes == ChangedSince(Rows(s, Notes), t)
      && r.response.classes == ChangedSince(Rows(s, Classes), t)
  {
    match SinceDate(since, parse)
    case None => QueryError
    case Some(t) =>
      Pulled(PullResponse(
        now,
        ChangedSince(Rows(s, Students), t),
        ChangedSince(Rows(s, AttendanceSessions), t),
        ChangedSince(Rows(s, AttendanceRecords), t),
        ChangedSince(Rows(s, Notes), t),
        ChangedSince(Rows(s, Classes), t)))
  }

  /** The rows a pull returns for one table. */
  function Returned(r: PullResponse, t: Table): TableRows {
    match t
    case Students => r.students
    case AttendanceSessions => r.attendanceSessions
    case AttendanceRecords => r.attendance
    case Notes => r.notes
    case Classes => r.classes
  }

  /** A full resync (no checkpoint) returns every row that carries an `updatedAt` after the
      epoch, soft-deleted ones included, in every table. */
  lemma FullResyncReturnsEverything(s: Store, now: Time, parse: DateParser, t: Table, id: Id)
    requires id in Rows(s, t) && UpdatedAfter(Rows(s, t)[id], Epoch)
    ensures HandlePull(s, None, now, parse).Pulled?
    ensures id in Returned(HandlePull(s, None, now, parse).response, t)
    ensures Returned(HandlePull(s, None, now, parse).response, t)[id] == Rows(s, t)[id]
  {
    match t
    case Students =>
    case AttendanceSessions =>
    case AttendanceRecords =>
    case Notes =>
    case Classes =>
  }
}

=== FILE: push.dfy ===
/** The push half of the sync engine (`handlePush`): the batch is stably sorted by entity
    priority, then every change is applied in that order to the store, and each change's
    uuid is recorded as processed or failed. A failed change leaves the store as it was and
    never stops the changes after it. */
module Push {
  import opened Wrappers
  import opened Values
  import opened SyncTypes
  import opened Sanitize
  import opened Ordering

  /** Why one change failed. The unknown-type text is produced by the sync code itself and
      the missing-payload text is the one V8 throws for `undefined.deletedAt`; the others
      stand for errors thrown by the database client, whose exact wording the model does not
      fix. */
  datatype Failure =
    | UnknownEntityType(token: string)
    | MissingPayload
    | InvalidDeletedAt
    | InvalidId
    | IdTaken(id: Id)
    | Rejected(message: string)
  {
    function Message(): string {
      match this
      case UnknownEntityType(t) => "Unknown entity type: " + t
      case MissingPayload => "Cannot read properties of undefined (reading 'deletedAt')"
      case InvalidDeletedAt => "Invalid value for argument deletedAt"
      case InvalidId => "Invalid value for argument id"
      case IdTaken(_) => "Unique constraint failed on the fields: (id)"
      case Rejected(m) => m
    }
  }

  /** What the push cannot see: the clock (one reading per request), the date parser behind
      `new Date(string)`, and the database's own checks on a row about to be written
      (foreign keys, required columns, column types): None accepts, Some(message) throws. */
  datatype Env = Env(
    now: Time,
    parse: DateParser,
    check: (Store, Table, Row) -> Option<string>)

  datatype StepResult = Applied(store: Store) | Failed(failure: Failure)

  predicate IsDelete(operation: string) {
    operation == "VIRTUAL_DELETE" || operation == "DELETE"
  }

  /** Writes `row` under `id`, unless the database refuses it. */
  function Write(s: Store, t: Table, id: Id, row: Row, env: Env): (r: StepResult)
    ensures r.Applied? <==> env.check(s, t, row).None?
    ensures r.Applied? ==> Rows(r.store, t) == Rows(s, t)[id := row]
    ensures r.Applied? ==> r.store.Keys == s.Keys + {t}
    ensures r.Applied? ==> forall u :: u != t ==> Rows(r.store, u) == Rows(s, u)
  {
    match env.check(s, t, row)
    case None => Applied(s[t := Rows(s, t)[id := row]])
    case Some(m) => Failed(Rejected(m))
  }

  /** The `deletedAt` a delete writes: the payload's own when it is truthy, else now. */
  function DeletedAt(payload: Obj, env: Env): (r: Option<Time>)
    ensures !("deletedAt" in payload && Truthy(payload["deletedAt"])) ==> r == Some(env.now)
    ensures "deletedAt" in payload && payload["deletedAt"].VStr? && payload["deletedAt"].s != "" ==>
      r == env.parse(payload["deletedAt"].s)
  {
    if "deletedAt" in payload && Truthy(payload["deletedAt"]) then ToDate(payload["deletedAt"], env.parse)
    else Some(env.now)
  }

  /** The fields a soft delete sets. */
  predicate IsSoftDeleteField(f: string) {
    f == "isDeleted" || f == "deletedAt" || f == "updatedAt"
  }

  function MarkDeleted(row: Row, deletedAt: Time, now: Time): (r: Row)
    ensures forall f :: f in r <==> f in row || IsSoftDeleteField(f)
    ensures "isDeleted" in r && r["isDeleted"] == VBool(true)
    ensures "deletedAt" in r && r["deletedAt"] == VTime(deletedAt)
    ensures "updatedAt" in r && r["updatedAt"] == VTime(now)
    ensures forall f :: f in row && !IsSoftDeleteField(f) ==> r[f] == row[f]
  {
    row["isDeleted" := VBool(true)]["deletedAt" := VTime(deletedAt)]["updatedAt" := VTime(now)]
  }

  /** `updateMany({ where: { id }, data: { isDeleted, deletedAt, updatedAt } })`: marks the
      row deleted; no row with that id is a successful no-op. Reading `payload.deletedAt`
      of a missing payload throws, and an invalid date is refused. */
  function SoftDelete(s: Store, t: Table, id: Id, payload: Option<Obj>, env: Env): (r: StepResult)
    ensures payload.None? ==> r == Failed(MissingPayload)
    ensures payload.Some? && DeletedAt(payload.value, env).None? ==> r == Failed(InvalidDeletedAt)
    ensures payload.Some? && DeletedAt(payload.value, env).Some? && id !in Rows(s, t) ==> r == Applied(s)
    ensures payload.Some? && DeletedAt(payload.value, env).Some? && id in Rows(s, t) ==>
      (r.Applied? <==>
         env.check(s, t, MarkDeleted(Rows(s, t)[id], DeletedAt(payload.value, env).value, env.now)).None?)
    ensures r.Applied? && id !in Rows(s, t) ==> r.store == s
    ensures r.Applied? && id in Rows(s, t) ==>
      Rows(r.store, t) == Rows(s, t)[id := MarkDeleted(Rows(s, t)[id], DeletedAt(payload.value, env).value, env.now)]
    ensures r.Applied? ==> forall u :: u != t ==> Rows(r.store, u) == Rows(s, u)
    ensures r.Applied? ==> r.store.Keys <= s.Keys + {t}
    ensures r.Failed? ==>
      payload.None? || DeletedAt(payload.value, env).None? || r.failure.Rejected?
  {
    match payload
    case None => Failed(MissingPayload)
    case Some(p) =>
      match DeletedAt(p, env)
      case None => Failed(InvalidDeletedAt)
      case Some(d) =>
        if id !in Rows(s, t) then Applied(s)
        else Write(s, t, id, MarkDeleted(Rows(s, t)[id], d, env.now), env)
  }

  /** The `id` an update leaves on the row: the payload's, when it carries one. */
  predicate KeepsId(clean: Obj, id: Id) {
    "id" !in clean || clean["id"] == VStr(id)
  }

  /** Moves a row to a new id (an update whose payload rewrites the primary key). */
  function Move(s: Store, t: Table, from: Id, to: Id, row: Row, env: Env): (r: StepResult)
    ensures r.Applied? <==> env.check(s, t, row).None?
    ensures r.Applied? ==> Rows(r.store, t) == (Rows(s, t) - {from})[to := row]
    ensures r.Applied? ==> r.store.Keys == s.Keys + {t}
    ensures r.Applied? ==> forall u :: u != t ==> Rows(r.store, u) == Rows(s, u)
  {
    match env.check(s, t, row)
    case None => Applied(s[t := (Rows(s, t) - {from})[to := row]])
    case Some(m) => Failed(Rejected(m))
  }

  /** The sanitized payload an upsert writes; a missing payload spreads to an empty object. */
  function Clean(payload: Option<Obj>, env: Env): Obj {
    SanitizePayload(payload.GetOr(map[]), env.parse)
  }

  /** `upsert({ where: { id }, create: { ...clean, id }, update: { ...clean } })` with the
      sanitized payload: a new row is the payload with `id` forced to the entity id; an
      existing row has exactly the payload's fields overwritten. The stored `updatedAt` is
      never compared with anything. A missing payload spreads to an empty object. */
  function Upsert(s: Store, t: Table, id: Id, payload: Option<Obj>, env: Env): (r: StepResult)
    ensures id !in Rows(s, t) ==> (r.Applied? <==> env.check(s, t, Clean(payload, env)["id" := VStr(id)]).None?)
    ensures id !in Rows(s, t) && r.Applied? ==>
      Rows(r.store, t) == Rows(s, t)[id := Clean(payload, env)["id" := VStr(id)]]
    ensures id in Rows(s, t) && KeepsId(Clean(payload, env), id) ==>
      (r.Applied? <==> env.check(s, t, Rows(s, t)[id] + Clean(payload, env)).None?)
    ensures id in Rows(s, t) && KeepsId(Clean(payload, env), id) && r.Applied? ==>
      Rows(r.store, t) == Rows(s, t)[id := Rows(s, t)[id] + Clean(payload, env)]
    ensures r.Applied? && KeepsId(Clean(payload, env), id) ==> id in Rows(r.store, t)
    ensures id in Rows(s, t) && !KeepsId(Clean(payload, env), id) ==>
      var to := Clean(payload, env)["id"];
      && (!to.VStr? ==> r == Failed(InvalidId))
      && (to.VStr? && to.s in Rows(s, t) ==> r == Failed(IdTaken(to.s)))
      && (to.VStr? && to.s !in Rows(s, t) ==>
            (r.Applied? <==> env.check(s, t, Rows(s, t)[id] + Clean(payload, env)).None?))
      && (r.Applied? ==> Rows(r.store, t) == (Rows(s, t) - {id})[to.s := Rows(s, t)[id] + Clean(payload, env)])
    ensures r.Applied? ==> forall u :: u != t ==> Rows(r.store, u) == Rows(s, u)
    ensures r.Applied? ==> r.store.Keys == s.Keys + {t}
    ensures r.Failed? ==> r.failure.Rejected? || r.failure.InvalidId? || r.failure.IdTaken?
  {
    var clean := Clean(payload, env);
    var rows := Rows(s, t);
    if id !in rows then
      Write(s, t, id, clean["id" := VStr(id)], env)
    else if KeepsId(clean, id) then
      Write(s, t, id, rows[id] + clean, env)
    else if !clean["id"].VStr? then
      Failed(InvalidId)
    else if clean["id"].s in rows then
      Failed(IdTaken(clean["id"].s))
    else
      Move(s, t, id, clean["id"].s, rows[id] + clean, env)
  }

  /** One iteration of the push loop. */
  function Step(s: Store, c: Change, env: Env): (r: StepResult)
    ensures MapEntityToModel(c.entityType).None? ==> r == Failed(UnknownEntityType(c.entityType))
    ensures KnownEntityType(c.entityType) && IsDelete(c.operation) ==>
      r == SoftDelete(s, MapEntityToModel(c.entityType).value, c.entityId, c.payload, env)
    ensures KnownEntityType(c.entityType) && !IsDelete(c.operation) ==>
      r == Upsert(s, MapEntityToModel(c.entityType).value, c.entityId, c.payload, env)
    ensures r.Applied? ==> MapEntityToModel(c.entityType).Some?
    ensures r.Applied? ==> forall u :: Some(u) != MapEntityToModel(c.entityType) ==> Rows(r.store, u) == Rows(s, u)
  {
    match MapEntityToModel(c.entityType)
    case None => Failed(UnknownEntityType(c.entityType))
    case Some(t) =>
      if IsDelete(c.operation) then SoftDelete(s, t, c.entityId, c.payload, env)
      else Upsert(s, t, c.entityId, c.payload, env)
  }

  /** The store after one change: unchanged when the change failed. */
  function After(s: Store, c: Change, env: Env): Store {
    match Step(s, c, env)
    case Applied(s') => s'
    case Failed(_) => s
  }

  datatype FailedEntry = FailedEntry(uuid: string, reason: Failure) {
    function Error(): string {
      reason.Message()
    }
  }

  /** The store after the loop and the two lists the response reports. */
  datatype Ledger = Ledger(store: Store, processed: seq<string>, failed: seq<FailedEntry>)

  /** The loop `for (const change of changes)` over the already sorted batch, for any
      per-change step: a change that applies moves the store on and is processed, one that
      fails leaves the store alone and is recorded with its reason. */
  function RunWith(step: (Store, Change) -> StepResult, s: Store, cs: seq<Change>): (l: Ledger)
    ensures |l.processed| + |l.failed| == |cs|
    decreases |cs|
  {
    if cs == [] then Ledger(s, [], [])
    else
      match step(s, cs[0])
      case Applied(s1) =>
        var rest := RunWith(step, s1, cs[1..]);
        Ledger(rest.store, [cs[0].uuid] + rest.processed, rest.failed)
      case Failed(f) =>
        var rest := RunWith(step, s, cs[1..]);
        Ledger(rest.store, rest.processed, [FailedEntry(cs[0].uuid, f)] + rest.failed)
  }

  /** The step of the push under one environment. */
  function StepIn(env: Env): (Store, Change) -> StepResult {
    (s: Store, c: Change) => Step(s, c, env)
  }

  /** The push loop itself. */
  function Run(s: Store, cs: seq<Change>, env: Env): (l: Ledger)
    ensures |l.processed| + |l.failed| == |cs|
  {
    RunWith(StepIn(env), s, cs)
  }

  datatype PushResponse = PushResponse(success: bool, processedUuids: seq<string>, failedUuids: seq<FailedEntry>)

  /** The outcome of a push request: 400 for a body whose `changes` is not an array, else 200
      with the ledger. */
  datatype PushOutcome =
    | InvalidFormat
    | Pushed(store: Store, response: PushResponse)
  {
    function Status(): nat {
      if InvalidFormat? then 400 else 200
    }
  }

  /** `handlePush`. `changes` is None when the body's `changes` is not an array. */
  function HandlePush(s: Store, changes: Option<seq<Change>>, env: Env): (r: PushOutcome)
    ensures changes.None? <==> r == InvalidFormat
    ensures r.Pushed? ==> r.response.success
    ensures r.Pushed? ==> |r.response.processedUuids| + |r.response.failedUuids| == |changes.value|
  {
    match changes
    case None => InvalidFormat
    case Some(cs) =>
      var l := Run(s, SortByPriority(cs), env);
      Pushed(l.store, PushResponse(true, l.processed, l.failed))
  }
}

=== FILE: push_properties.dfy ===
/** Properties of the push loop that relate several changes or several runs: replay
    safety, the ledger as a partition of the batch, isolation of failures, and that a
    table no change names is left alone. */
module PushProperties {
  import opened Wrappers
  import opened Values
  import opened SyncTypes
  import opened Sanitize
  import opened Ordering
  import opened Push

  function Uuids(cs: seq<Change>): (r: seq<string>)
    ensures |r| == |cs|
    ensures forall i :: 0 <= i < |cs| ==> r[i] == cs[i].uuid
  {
    seq(|cs|, i requires 0 <= i < |cs| => cs[i].uuid)
  }

  function FailedUuids(fs: seq<FailedEntry>): (r: seq<string>)
    ensures |r| == |fs|
  {
    if fs == [] then [] else [fs[0].uuid] + FailedUuids(fs[1..])
  }

  /** `a` is `b` with some elements left out, the rest in the same order. */
  predicate IsSubsequence(a: seq<string>, b: seq<string>)
    decreases |b|
  {
    if a == [] then true
    else if b == [] then false
    else if a[0] == b[0] then IsSubsequence(a[1..], b[1..])
    else IsSubsequence(a, b[1..])
  }

  lemma {:induction false} SubsequenceOfTail(a: seq<string>, x: string, b: seq<string>)
    requires IsSubsequence(a, b)
    ensures IsSubsequence(a, [x] + b)
    decreases |b|, 1
  {
    if a != [] {
      assert ([x] + b)[1..] == b;
      if a[0] == x {
        if a[0] == b[0] {
          SubsequenceOfTail(a[1..], b[0], b[1..]);
          assert [b[0]] + b[1..] == b;
        } else {
          SubsequenceOfTail(a, b[0], b[1..]);
          assert [b[0]] + b[1..] == b;
          SubsequenceDropHead(a, b);
        }
      }
    }
  }

  lemma {:induction false} SubsequenceDropHead(a: seq<string>, b: seq<string>)
    requires a != [] && IsSubsequence(a, b)
    ensures IsSubsequence(a[1..], b)
    decreases |b|, 0
  {
    if b != [] {
      if a[0] == b[0] {
        if a[1..] != [] {
          SubsequenceOfTail(a[1..], b[0], b[1..]);
          assert [b[0]] + b[1..] == b;
        }
      } else {
        SubsequenceDropHead(a, b[1..]);
        if a[1..] != [] {
          SubsequenceOfTail(a[1..], b[0], b[1..]);
          assert [b[0]] + b[1..] == b;
        }
      }
    }
  }

  // ---------------------------------------------------------------- the loop, for any step

  /** The store after one change under `step`: unchanged when the change failed. */
  function Next(step: (Store, Change) -> StepResult, s: Store, c: Change): Store {
    match step(s, c)
    case Applied(s1) => s1
    case Failed(_) => s
  }

  /** One turn of the loop: the first change moves the store on, or not, and adds its uuid
      to one of the two lists. */
  lemma RunStep(step: (Store, Change) -> StepResult, s: Store, cs: seq<Change>)
    requires cs != []
    ensures var rest := RunWith(step, Next(step, s, cs[0]), cs[1..]);
      var applied := step(s, cs[0]).Applied?;
      && RunWith(step, s, cs).store == rest.store
      && RunWith(step, s, cs).processed == (if applied then [cs[0].uuid] else []) + rest.processed
      && |RunWith(step, s, cs).failed| == (if applied then 0 else 1) + |rest.failed|
      && FailedUuids(RunWith(step, s, cs).failed) == (if applied then [] else [cs[0].uuid]) + FailedUuids(rest.failed)
  {
    var l := RunWith(step, s, cs);
    var rest := RunWith(step, Next(step, s, cs[0]), cs[1..]);
    match step(s, cs[0])
    case Applied(s1) =>
      assert l == Ledger(rest.store, [cs[0].uuid] + rest.processed, rest.failed);
    case Failed(f) =>
      assert l == Ledger(rest.store, rest.processed, [FailedEntry(cs[0].uuid, f)] + rest.failed);
      assert l.failed[1..] == rest.failed;
  }

  lemma {:induction false} LedgerCountsWith(step: (Store, Change) -> StepResult, s: Store, cs: seq<Change>)
    ensures multiset(RunWith(step, s, cs).processed) + multiset(FailedUuids(RunWith(step, s, cs).failed))
            == multiset(Uuids(cs))
    decreases |cs|
  {
    if cs != [] {
      RunStep(step, s, cs);
      LedgerCountsWith(step, Next(step, s, cs[0]), cs[1..]);
      UuidsCons(cs);
    }
  }

  lemma {:induction false} LedgerOrderWith(step: (Store, Change) -> StepResult, s: Store, cs: seq<Change>)
    ensures IsSubsequence(RunWith(step, s, cs).processed, Uuids(cs))
    ensures IsSubsequence(FailedUuids(RunWith(step, s, cs).failed), Uuids(cs))
    decreases |cs|
  {
    if cs != [] {
      var x, tail := cs[0].uuid, Uuids(cs[1..]);
      var rest := RunWith(step, Next(step, s, cs[0]), cs[1..]);
      var processed, failed := RunWith(step, s, cs).processed, FailedUuids(RunWith(step, s, cs).failed);
      RunStep(step, s, cs);
      LedgerOrderWith(step, Next(step, s, cs[0]), cs[1..]);
      UuidsCons(cs);
      if step(s, cs[0]).Applied? {
        assert processed[1..] == rest.processed;
        SubsequenceOfTail(failed, x, tail);
      } else {
        assert failed[1..] == FailedUuids(rest.failed);
        SubsequenceOfTail(processed, x, tail);
      }
    }
  }

  lemma {:induction false} FailureIsolatedWith(step: (Store, Change) -> StepResult, s: Store,
                                               pre: seq<Change>, c: Change, post: seq<Change>)
    requires step(RunWith(step, s, pre).store, c).Failed?
    ensures RunWith(step, s, pre + [c] + post).store == RunWith(step, s, pre + post).store
    ensures RunWith(step, s, pre + [c] + post).processed == RunWith(step, s, pre + post).processed
    ensures |RunWith(step, s, pre + [c] + post).failed| == |RunWith(step, s, pre + post).failed| + 1
    decreases |pre|
  {
    SplitAround(pre, c, post);
    RunStep(step, s, pre + [c] + post);
    if pre != [] {
      RunStep(step, s, pre);
      RunStep(step, s, pre + post);
      FailureIsolatedWith(step, Next(step, s, pre[0]), pre[1..], c, post);
    }
  }

  /** How `pre + [c] + post` and `pre + post` come apart at their first element. */
  lemma SplitAround(pre: seq<Change>, c: Change, post: seq<Change>)
    ensures pre == [] ==> (pre + [c] + post)[0] == c && (pre + [c] + post)[1..] == post && pre + post == post
    ensures pre != [] ==>
      && (pre + [c] + post)[0] == pre[0] && (pre + [c] + post)[1..] == pre[1..] + [c] + post
      && (pre + post)[0] == pre[0] && (pre + post)[1..] == pre[1..] + post
  {
    if pre == [] {
      assert pre + [c] + post == [c] + post;
    } else {
      assert (pre + [c] + post)[1..] == pre[1..] + [c] + post;
    }
  }

  lemma {:induction false} AlwaysFailingReported(step: (Store, Change) -> StepResult, s: Store,
                                                 cs: seq<Change>, i: nat, f: Failure)
    requires i < |cs|
    requires forall s' :: step(s', cs[i]) == Failed(f)
    ensures FailedEntry(cs[i].uuid, f) in RunWith(step, s, cs).failed
    decreases |cs|
  {
    RunStep(step, s, cs);
    if i > 0 {
      AlwaysFailingReported(step, Next(step, s, cs[0]), cs[1..], i - 1, f);
      var failed := RunWith(step, s, cs).failed;
      assert step(s, cs[0]).Failed? ==> failed[1..] == RunWith(step, Next(step, s, cs[0]), cs[1..]).failed;
    }
  }

  lemma {:induction false} UntouchedWith(step: (Store, Change) -> StepResult, s: Store, cs: seq<Change>, t: Table)
    requires forall s', c :: c in cs && step(s', c).Applied? ==> Rows(step(s', c).store, t) == Rows(s', t)
    ensures Rows(RunWith(step, s, cs).store, t) == Rows(s, t)
    decreases |cs|
  {
    if cs != [] {
      assert cs[0] in cs;
      RunStep(step, s, cs);
      UntouchedWith(step, Next(step, s, cs[0]), cs[1..], t);
    }
  }

  // ---------------------------------------------------------------- the push loop

  /** The ledger is a partition of the batch: every uuid is reported exactly once, either
      as processed or as failed, and each list follows the order the changes ran in. */
  lemma LedgerPartitionsBatch(s: Store, cs: seq<Change>, env: Env)
    ensures multiset(Run(s, cs, env).processed) + multiset(FailedUuids(Run(s, cs, env).failed))
            == multiset(Uuids(cs))
    ensures IsSubsequence(Run(s, cs, env).processed, Uuids(cs))
    ensures IsSubsequence(FailedUuids(Run(s, cs, env).failed), Uuids(cs))
  {
    LedgerCountsWith(StepIn(env), s, cs);
    LedgerOrderWith(StepIn(env), s, cs);
  }

  /** A change that fails takes nothing away from the rest of the batch: the run ends in
      the same store and processes the same changes as the run without it. */
  lemma FailureIsolated(s: Store, pre: seq<Change>, c: Change, post: seq<Change>, env: Env)
    requires Step(Run(s, pre, env).store, c, env).Failed?
    ensures Run(s, pre + [c] + post, env).store == Run(s, pre + post, env).store
    ensures Run(s, pre + [c] + post, env).processed == Run(s, pre + post, env).processed
    ensures |Run(s, pre + [c] + post, env).failed| == |Run(s, pre + post, env).failed| + 1
  {
    FailureIsolatedWith(StepIn(env), s, pre, c, post);
  }

  /** A change whose entity type names no table is always reported failed with the
      message "Unknown entity type: <token>", wherever it sits in the batch. */
  lemma UnknownTypeReported(s: Store, cs: seq<Change>, env: Env, i: nat)
    requires i < |cs| && !KnownEntityType(cs[i].entityType)
    ensures FailedEntry(cs[i].uuid, UnknownEntityType(cs[i].entityType)) in Run(s, cs, env).failed
    ensures UnknownEntityType(cs[i].entityType).Message() == "Unknown entity type: " + cs[i].entityType
  {
    AlwaysFailingReported(StepIn(env), s, cs, i, UnknownEntityType(cs[i].entityType));
  }

  /** A table that no change of the batch maps to is the same after the run. */
  lemma UntouchedTableUnchanged(s: Store, cs: seq<Change>, env: Env, t: Table)
    requires forall c :: c in cs ==> MapEntityToModel(c.entityType) != Some(t)
    ensures Rows(Run(s, cs, env).store, t) == Rows(s, t)
  {
    UntouchedWith(StepIn(env), s, cs, t);
  }

  /** The table a known change targets. */
  function TargetOf(c: Change): Table
    requires KnownEntityType(c.entityType)
  {
    MapEntityToModel(c.entityType).value
  }

  /** Replaying an upsert: applying the same CREATE/UPDATE change twice leaves the store
      the first application left, provided the payload does not rewrite the row's id. */
  lemma UpsertReplayIdempotent(s: Store, c: Change, env: Env)
    requires !IsDelete(c.operation)
    requires KeepsId(SanitizePayload(c.payload.GetOr(map[]), env.parse), c.entityId)
    ensures After(After(s, c, env), c, env) == After(s, c, env)
  {
    if Step(s, c, env).Applied? {
      var t := TargetOf(c);
      assert Step(s, c, env) == Upsert(s, t, c.entityId, c.payload, env);
      var s1 := After(s, c, env);
      UpsertAgain(s, t, c.entityId, c.payload, env);
      assert Step(s1, c, env) == Upsert(s1, t, c.entityId, c.payload, env);
    }
  }

  /** The store-level half of the replay: a second identical upsert rewrites the row it
      finds with the values it already has. */
  lemma UpsertAgain(s: Store, t: Table, id: Id, payload: Option<Obj>, env: Env)
    requires Upsert(s, t, id, payload, env).Applied?
    requires KeepsId(SanitizePayload(payload.GetOr(map[]), env.parse), id)
    ensures var s1 := Upsert(s, t, id, payload, env).store;
      Upsert(s1, t, id, payload, env).Applied? ==> Upsert(s1, t, id, payload, env).store == s1
  {
    var s1 := Upsert(s, t, id, payload, env).store;
    var clean := SanitizePayload(payload.GetOr(map[]), env.parse);
    var row := Rows(s1, t)[id];
    if id in Rows(s, t) {
      MergeAgain(Rows(s, t)[id], clean);
    } else {
      StampAgain(clean, id);
    }
    assert Upsert(s1, t, id, payload, env) == Write(s1, t, id, row + clean, env);
    WriteSameRow(s1, t, id, row, env);
  }

  /** Merging the same fields twice is merging them once. */
  lemma MergeAgain(row: Row, clean: Obj)
    ensures (row + clean) + clean == row + clean
  {
  }

  /** A created row already carries every field of its payload, `id` included. */
  lemma StampAgain(clean: Obj, id: Id)
    requires KeepsId(clean, id)
    ensures clean["id" := VStr(id)] + clean == clean["id" := VStr(id)]
  {
  }

  /** Writing back the row a table already holds leaves the store as it was. */
  lemma WriteSameRow(s: Store, t: Table, id: Id, row: Row, env: Env)
    requires id in Rows(s, t) && Rows(s, t)[id] == row
    ensures Write(s, t, id, row, env).Applied? ==> Write(s, t, id, row, env).store == s
  {
    if Write(s, t, id, row, env).Applied? {
      assert t in s;
      assert Rows(s, t)[id := row] == Rows(s, t);
    }
  }

  /** Two stores with the same tables holding the same rows are equal. */
  lemma StoresEqual(a: Store, b: Store)
    requires a.Keys == b.Keys
    requires forall u :: Rows(a, u) == Rows(b, u)
    ensures a == b
  {
    forall u | u in a
      ensures a[u] == b[u]
    {
      assert Rows(a, u) == a[u];
    }
  }

  /** Replaying a delete that carries its own `deletedAt`: once the first application has
      succeeded, a later replay changes nothing but the row's `updatedAt`. */
  lemma DeleteReplayOnlyBumpsUpdatedAt(s: Store, c: Change, env: Env, later: Time)
    requires IsDelete(c.operation) && KnownEntityType(c.entityType)
    requires c.payload.Some? && "deletedAt" in c.payload.value && Truthy(c.payload.value["deletedAt"])
    requires Step(s, c, env).Applied?
    ensures var t := TargetOf(c);
      var s1 := After(s, c, env);
      var s2 := After(s1, c, env.(now := later));
      && (forall u :: u != t ==> Rows(s2, u) == Rows(s1, u))
      && (c.entityId !in Rows(s1, t) ==> Rows(s2, t) == Rows(s1, t))
      && (c.entityId in Rows(s1, t) ==>
            || Rows(s2, t) == Rows(s1, t)
            || Rows(s2, t) == Rows(s1, t)[c.entityId := Rows(s1, t)[c.entityId]["updatedAt" := VTime(later)]])
  {
    var t := TargetOf(c);
    var id := c.entityId;
    var env2 := env.(now := later);
    var p := c.payload.value;
    var s1 := After(s, c, env);
    var d := DeletedAt(p, env).value;
    assert DeletedAt(p, env2) == Some(d);
    assert Step(s1, c, env2) == SoftDelete(s1, t, id, c.payload, env2);
    if id in Rows(s1, t) {
      assert id in Rows(s, t);
      var row1 := Rows(s1, t)[id];
      assert row1 == MarkDeleted(Rows(s, t)[id], d, env.now);
      MarkDeletedAgain(Rows(s, t)[id], d, env.now, later);
    }
  }

  /** Marking an already marked row with the same `deletedAt` only moves `updatedAt`. */
  lemma MarkDeletedAgain(row: Row, d: Time, now: Time, later: Time)
    ensures MarkDeleted(MarkDeleted(row, d, now), d, later) == MarkDeleted(row, d, now)["updatedAt" := VTime(later)]
  {
  }

  /** Last write wins: an update whose payload carries an `updatedAt` older than the stored
      one still overwrites it. */
  lemma StaleUpdateOverwrites(s: Store, c: Change, env: Env, text: string, older: Time, newer: Time)
    requires !IsDelete(c.operation) && KnownEntityType(c.entityType)
    requires c.payload.Some? && "updatedAt" in c.payload.value && c.payload.value["updatedAt"] == VStr(text)
    requires env.parse(DateText(text)) == Some(older) && older < newer
    requires c.entityId in Rows(s, TargetOf(c))
    requires "updatedAt" in Rows(s, TargetOf(c))[c.entityId]
    requires Rows(s, TargetOf(c))[c.entityId]["updatedAt"] == VTime(newer)
    requires KeepsId(SanitizePayload(c.payload.value, env.parse), c.entityId)
    requires Step(s, c, env).Applied?
    ensures "updatedAt" in Rows(After(s, c, env), TargetOf(c))[c.entityId]
    ensures Rows(After(s, c, env), TargetOf(c))[c.entityId]["updatedAt"] == VTime(older)
  {
    var clean := SanitizePayload(c.payload.value, env.parse);
    assert clean["updatedAt"] == VTime(older);
  }

  lemma UuidsCons(cs: seq<Change>)
    requires cs != []
    ensures Uuids(cs) == [cs[0].uuid] + Uuids(cs[1..])
  {
    assert forall i :: 0 <= i < |cs| ==> Uuids(cs)[i] == ([cs[0].uuid] + Uuids(cs[1..]))[i];
  }

  /** Taking one element out of a sequence takes one element out of its multiset... */
  lemma RemoveOne<T>(b: seq<T>, k: nat)
    requires k < |b|
    ensures multiset(b[..k] + b[k + 1..]) == multiset(b) - multiset{b[k]}
  {
    assert b == b[..k] + [b[k]] + b[k + 1..];
    assert multiset(b) == multiset(b[..k]) + multiset{b[k]} + multiset(b[k + 1..]);
  }

  /** ...and taking one change out of a batch takes its uuid out of the batch's uuids. */
  lemma RemoveOneUuid(b: seq<Change>, k: nat)
    requires k < |b|
    ensures multiset(Uuids(b)) == multiset(Uuids(b[..k] + b[k + 1..])) + multiset{b[k].uuid}
  {
    var u := Uuids(b);
    assert Uuids(b[..k] + b[k + 1..]) == u[..k] + u[k + 1..];
    RemoveOne(u, k);
  }

  /** Reordering a batch reorders its uuids the same way. */
  lemma {:induction false} UuidsOfPermutation(a: seq<Change>, b: seq<Change>)
    requires multiset(a) == multiset(b)
    ensures multiset(Uuids(a)) == multiset(Uuids(b))
    decreases |a|
  {
    if a == [] {
      assert |b| == |multiset(b)| == 0;
    } else {
      var x := a[0];
      var k := IndexOf(b, x);
      var rest := b[..k] + b[k + 1..];
      RemoveOne(b, k);
      RemoveHead(a);
      UuidsOfPermutation(a[1..], rest);
      RemoveOneUuid(b, k);
      UuidsCons(a);
    }
  }

  /** A position of `x` in `b`. */
  function IndexOf(b: seq<Change>, x: Change): (k: nat)
    requires x in multiset(b)
    ensures k < |b| && b[k] == x
  {
    if b[0] == x then 0
    else
      assert b == [b[0]] + b[1..];
      1 + IndexOf(b[1..], x)
  }

  lemma RemoveHead(a: seq<Change>)
    requires a != []
    ensures multiset(a[1..]) == multiset(a) - multiset{a[0]}
  {
    assert a == [a[0]] + a[1..];
  }

  /** The response of a push reports every uuid of the request exactly once, and lists
      processed and failed changes in dependency order. */
  lemma PushReportsEveryChange(s: Store, cs: seq<Change>, env: Env)
    ensures var r := HandlePush(s, Some(cs), env).response;
      && r.success
      && multiset(r.processedUuids) + multiset(FailedUuids(r.failedUuids)) == multiset(Uuids(cs))
      && IsSubsequence(r.processedUuids, Uuids(SortByPriority(cs)))
      && IsSubsequence(FailedUuids(r.failedUuids), Uuids(SortByPriority(cs)))
  {
    LedgerPartitionsBatch(s, SortByPriority(cs), env);
    UuidsOfPermutation(SortByPriority(cs), cs);
  }
}

=== FILE: realtime.dfy ===
/** `emitAppNotification`: routing an in-app notification to a socket room. The socket
    server is a sink; the model returns what it is asked to do. */
module Realtime {
  import opened Wrappers

  /** The notification as the caller builds it. `audience` is untyped at run time, so any
      string may arrive. */
  datatype Payload = Payload(
    level: string,
    title: string,
    message: string,
    audience: Option<string>,
    targetUserId: Option<string>,
    entityType: Option<string>,
    entityId: Option<string>,
    classId: Option<string>)

  /** What the socket server is told: emit to one room, emit to every client, or only log a
      warning. Every emission carries the payload unchanged under one event name. */
  datatype Emission =
    | ToRoom(room: string, event: string, payload: Payload)
    | Broadcast(event: string, payload: Payload)
    | Warn(payload: Payload)

  const EventName := "app_notification"
  const AdminRoom := "admins"

  /** The room of one user's sockets. */
  function UserRoom(userId: string): string {
    "user_" + userId
  }

  /** `payload.audience || 'all'`: a missing or empty audience means everyone. */
  function AudienceOf(p: Payload): (a: string)
    ensures p.audience.None? || p.audience == Some("") ==> a == "all"
    ensures p.audience.Some? && p.audience.value != "" ==> a == p.audience.value
  {
    match p.audience
    case None => "all"
    case Some(a) => if a == "" then "all" else a
  }

  /** `emitAppNotification`. "admins" goes to the admin room; "user" goes to the target's
      room when a non-empty target is given; "all" (also the default) goes to everyone;
      anything else, including "user" without a target, is only logged. */
  function EmitAppNotification(p: Payload): (e: Emission)
    ensures e.ToRoom? || e.Broadcast? ==> e.payload == p && e.event == EventName
    ensures e == ToRoom(AdminRoom, EventName, p) <==> AudienceOf(p) == "admins"
    ensures e.Broadcast? <==> AudienceOf(p) == "all"
    ensures e.ToRoom? && e.room != AdminRoom ==>
      AudienceOf(p) == "user" && p.targetUserId.Some? && e.room == UserRoom(p.targetUserId.value)
    ensures AudienceOf(p) == "user" && p.targetUserId.Some? && p.targetUserId.value != "" ==>
      e == ToRoom(UserRoom(p.targetUserId.value), EventName, p)
    ensures e.Warn? <==>
      AudienceOf(p) !in {"admins", "all", "user"}
      || (AudienceOf(p) == "user" && (p.targetUserId.None? || p.targetUserId.value == ""))
  {
    var audience := AudienceOf(p);
    if audience == "admins" then ToRoom(AdminRoom, EventName, p)
    else if audience == "user" && p.targetUserId.Some? && p.targetUserId.value != "" then
      UserRoomIsNotAdminRoom(p.targetUserId.value);
      ToRoom(UserRoom(p.targetUserId.value), EventName, p)
    else if audience == "all" then Broadcast(EventName, p)
    else Warn(p)
  }

  /** A user's room is never the admin room, so a notification aimed at one user never
      reaches the admins' room, whatever the user id. */
  lemma {:induction false} UserRoomIsNotAdminRoom(userId: string)
    ensures UserRoom(userId) != AdminRoom
  {
    assert UserRoom(userId)[0] == 'u' != AdminRoom[0];
  }
}

=== FILE: sanitize.dfy ===
/** The payload sanitizer of the sync push (`sanitizePayload`): date-like string fields
    holding a microsecond timestamp are cut to milliseconds and, when they parse, stored
    as timestamps. */
module Sanitize {
  import opened Wrappers
  import opened Strings
  import opened Values

  /** Length of `YYYY-MM-DDTHH:MM:SS.dddddd`. */
  const MicroStampLength: nat := 26

  predicate DigitsAt(s: string, i: nat, n: nat) {
    i + n <= |s| && forall k :: i <= k < i + n ==> IsDigit(s[k])
  }

  /** The regular expression `\d{4}-\d{2}-\d{2}T\d{2}:\d{2}:\d{2}\.\d{6}` matches at `i`. */
  predicate MicroStampAt(s: string, i: nat) {
    && i + MicroStampLength <= |s|
    && DigitsAt(s, i, 4) && s[i + 4] == '-'
    && DigitsAt(s, i + 5, 2) && s[i + 7] == '-'
    && DigitsAt(s, i + 8, 2) && s[i + 10] == 'T'
    && DigitsAt(s, i + 11, 2) && s[i + 13] == ':'
    && DigitsAt(s, i + 14, 2) && s[i + 16] == ':'
    && DigitsAt(s, i + 17, 2) && s[i + 19] == '.'
    && DigitsAt(s, i + 20, 6)
  }

  /** The unanchored `.test(value)` of that expression: a match anywhere in the string. */
  ghost predicate ContainsMicroStamp(s: string) {
    exists i: nat :: i + MicroStampLength <= |s| && MicroStampAt(s, i)
  }

  /** Scanning search for the timestamp, from position `from` on. */
  function HasMicroStampFrom(s: string, from: nat): (b: bool)
    ensures b <==> exists i: nat :: from <= i && i + MicroStampLength <= |s| && MicroStampAt(s, i)
    decreases |s| - from
  {
    if from + MicroStampLength > |s| then false
    else if MicroStampAt(s, from) then true
    else HasMicroStampFrom(s, from + 1)
  }

  function HasMicroStamp(s: string): (b: bool)
    ensures b <==> ContainsMicroStamp(s)
  {
    HasMicroStampFrom(s, 0)
  }

  /** The regular expression `(\.\d{3})\d+` matches at `i`: a dot and at least four digits. */
  predicate FractionRunAt(s: string, i: nat) {
    i < |s| && s[i] == '.' && DigitsAt(s, i + 1, 4)
  }

  /** End of the maximal run of digits that starts at `k` (the greedy `\d+`). */
  function DigitRunEnd(s: string, k: nat): (j: nat)
    requires k <= |s|
    ensures k <= j <= |s|
    ensures forall m :: k <= m < j ==> IsDigit(s[m])
    ensures j == |s| || !IsDigit(s[j])
    decreases |s| - k
  {
    if k == |s| || !IsDigit(s[k]) then k else DigitRunEnd(s, k + 1)
  }

  /** Leftmost position at or after `from` where `(\.\d{3})\d+` matches. */
  function FirstFractionRun(s: string, from: nat): (r: Option<nat>)
    ensures r.Some? ==> from <= r.value && FractionRunAt(s, r.value)
    ensures r.Some? ==> forall k :: from <= k < r.value ==> !FractionRunAt(s, k)
    ensures r.None? ==> forall k :: from <= k < |s| ==> !FractionRunAt(s, k)
    decreases |s| - from
  {
    if from >= |s| then None
    else if FractionRunAt(s, from) then Some(from)
    else FirstFractionRun(s, from + 1)
  }

  /** `value.replace(/(\.\d{3})\d+/, '$1')`: the first dot-and-digits run keeps its dot and
      three digits and loses the rest of its digits; everything else is kept. */
  function TruncateFraction(s: string): (r: string)
    ensures FirstFractionRun(s, 0).None? ==> r == s
    ensures FirstFractionRun(s, 0).Some? ==>
      var i := FirstFractionRun(s, 0).value;
      var j := DigitRunEnd(s, i + 4);
      r == s[..i + 4] + s[j..] && j > i + 4
    ensures FirstFractionRun(s, 0).Some? ==> |r| < |s| && !FractionRunAt(r, FirstFractionRun(s, 0).value)
  {
    match FirstFractionRun(s, 0)
    case None => s
    case Some(i) =>
      var j := DigitRunEnd(s, i + 4);
      var r := s[..i + 4] + s[j..];
      assert |r| == |s| - (j - (i + 4));
      assert i + 4 < |r| ==> r[i + 4] == s[j];
      r
  }

  /** The keys whose string values are treated as dates: a name ending in `At`, `date`, `birthdate`. */
  predicate IsDateKey(key: string) {
    EndsWith(key, "At") || key == "date" || key == "birthdate"
  }

  /** The text handed to the date parser for a date-like string. */
  function DateText(s: string): string {
    if HasMicroStamp(s) then TruncateFraction(s) else s
  }

  function SanitizeValue(key: string, v: Value, parse: DateParser): Value {
    if v.VStr? && IsDateKey(key) then
      match parse(DateText(v.s))
      case Some(t) => VTime(t)
      case None => v
    else v
  }

  /** `sanitizePayload`: a copy of the payload with the same keys, in which only date-like
      string fields change, and only into the timestamp their text parses to. */
  function SanitizePayload(payload: Obj, parse: DateParser): (r: Obj)
    ensures r.Keys == payload.Keys
    ensures forall k :: k in payload && !(payload[k].VStr? && IsDateKey(k)) ==> r[k] == payload[k]
    ensures forall k :: k in payload && payload[k].VStr? && IsDateKey(k) ==>
      (parse(DateText(payload[k].s)).Some? ==> r[k] == VTime(parse(DateText(payload[k].s)).value))
      && (parse(DateText(payload[k].s)).None? ==> r[k] == payload[k])
  {
    map k | k in payload :: SanitizeValue(k, payload[k], parse)
  }

  /** An ISO timestamp with microseconds, followed by anything that does not start with a
      digit (a `Z`, an offset, nothing), is handed to the parser with exactly three
      fractional digits. */
  lemma IsoMicrosTruncated(s: string)
    requires MicroStampAt(s, 0)
    requires |s| == MicroStampLength || !IsDigit(s[MicroStampLength])
    ensures DateText(s) == s[..23] + s[MicroStampLength..]
    ensures |DateText(s)| == |s| - 3
  {
    assert HasMicroStamp(s) by {
      assert MicroStampAt(s, 0);
    }
    forall k | 0 <= k < 19
      ensures !FractionRunAt(s, k)
    {
      assert s[k] != '.' by {
        if k < 4 { assert IsDigit(s[k]); }
        else if 4 < k < 7 { assert IsDigit(s[k]); }
        else if 7 < k < 10 { assert IsDigit(s[k]); }
        else if 10 < k < 13 { assert IsDigit(s[k]); }
        else if 13 < k < 16 { assert IsDigit(s[k]); }
        else if 16 < k < 19 { assert IsDigit(s[k]); }
      }
    }
    assert FractionRunAt(s, 19);
    var first := FirstFractionRun(s, 0);
    assert first == Some(19);
    assert DigitRunEnd(s, 23) == MicroStampLength by {
      assert DigitRunEnd(s, 23) == DigitRunEnd(s, 24) == DigitRunEnd(s, 25) == DigitRunEnd(s, 26);
    }
  }

  /** A string with no microsecond timestamp reaches the parser unchanged. */
  lemma PlainTextUntouched(s: string)
    requires !ContainsMicroStamp(s)
    ensures DateText(s) == s
  {
  }

  /** Sanitizing twice gives what sanitizing once gives: a field that became a timestamp is
      no longer a string, and a string that failed to parse fails again. */
  lemma SanitizeIdempotent(payload: Obj, parse: DateParser)
    ensures SanitizePayload(SanitizePayload(payload, parse), parse) == SanitizePayload(payload, parse)
  {
    var once := SanitizePayload(payload, parse);
    var twice := SanitizePayload(once, parse);
    forall k | k in once
      ensures twice[k] == once[k]
    {
    }
    assert twice == once;
  }
}

=== FILE: schema.dfy ===
/** The typed rows the controllers, utilities and scheduled jobs read and write. Each table
    is a sequence in the order the database returns it. */
module Schema {
  import opened Wrappers
  import opened Values

  /** `Role` as stored. Registration only ever writes the first two. */
  datatype Role = Admin | Servant | OtherRole(name: string)

  /** The notification kinds; each names a boolean column of the preference row. */
  datatype NotificationType =
    | NoteAdded
    | NoteUpdated
    | AttendanceRecorded
    | BirthdayReminder
    | InactiveStudent
    | NewUserRegistered

  /** A user's preference row: the kinds switched on, when birthday reminders come, and the
      inactivity threshold in days (nullable). */
  datatype Preference = Preference(
    enabled: set<NotificationType>,
    birthdayNotifyMorning: bool,
    inactiveThresholdDays: Option<int>)

  datatype User = User(
    id: string,
    email: string,
    name: string,
    password: string,
    role: Role,
    isActive: bool,
    isDeleted: bool,
    fcmToken: Option<string>,
    createdAt: Time,
    preference: Option<Preference>)

  datatype ClassRow = ClassRow(id: string, name: string, grade: Option<string>, isDeleted: bool)

  datatype Session = Session(id: string, classId: string, date: Time, isDeleted: bool)

  datatype AttendanceRecord = AttendanceRecord(
    id: string,
    sessionId: string,
    studentId: string,
    status: string,
    isDeleted: bool)

  /** A calendar date; months are 1-12. */
  datatype CalendarDate = CalendarDate(year: int, month: int, day: int)

  datatype Student = Student(
    id: string,
    name: string,
    classId: string,
    birthdate: Option<CalendarDate>,
    isDeleted: bool)

  /** The `ClassManager` link between a user and a class; (classId, userId) is its key. */
  datatype ManagerLink = ManagerLink(classId: string, userId: string, isDeleted: bool)

  datatype Db = Db(
    users: seq<User>,
    classes: seq<ClassRow>,
    sessions: seq<Session>,
    records: seq<AttendanceRecord>,
    students: seq<Student>,
    links: seq<ManagerLink>)

  /** `findUnique({ where: { id } })`. */
  function FindUser(users: seq<User>, id: string): (r: Option<User>)
    ensures r.Some? ==> r.value in users && r.value.id == id
    ensures r.None? ==> forall u :: u in users ==> u.id != id
  {
    if users == [] then None
    else if users[0].id == id then Some(users[0])
    else FindUser(users[1..], id)
  }

  /** `findUnique({ where: { email } })`. */
  function FindUserByEmail(users: seq<User>, email: string): (r: Option<User>)
    ensures r.Some? ==> r.value in users && r.value.email == email
    ensures r.None? ==> forall u :: u in users ==> u.email != email
  {
    if users == [] then None
    else if users[0].email == email then Some(users[0])
    else FindUserByEmail(users[1..], email)
  }

  /** A class's link rows, `classManager.findMany({ where: { classId } })`, in table order.
      Soft-deleted links are not filtered out. */
  function ManagerRows(links: seq<ManagerLink>, classId: string): (r: seq<ManagerLink>)
    ensures forall m :: m in r <==> m in links && m.classId == classId
  {
    if links == [] then []
    else (if links[0].classId == classId then [links[0]] else []) + ManagerRows(links[1..], classId)
  }

  /** Some link row of the user: `managers.some(m => m.userId === userId)`. */
  predicate AmongRows(rows: seq<ManagerLink>, userId: string) {
    exists m :: m in rows && m.userId == userId
  }

  /** `classManager.findUnique({ where: { classId_userId } })`: the first row with the key. */
  function FindLink(links: seq<ManagerLink>, classId: string, userId: string): (r: Option<ManagerLink>)
    ensures r.Some? ==> r.value in links && r.value.classId == classId && r.value.userId == userId
    ensures r.None? ==> forall m :: m in links ==> m.classId != classId || m.userId != userId
  {
    if links == [] then None
    else if links[0].classId == classId && links[0].userId == userId then Some(links[0])
    else FindLink(links[1..], classId, userId)
  }

  /** `!!user.fcmToken`: a token is present and not empty. */
  predicate HasToken(u: User) {
    u.fcmToken.Some? && u.fcmToken.value != ""
  }

  /** `!(prefs && !prefs[type])`: no preference row means opted in. */
  predicate WantsType(u: User, kind: NotificationType) {
    u.preference.None? || kind in u.preference.value.enabled
  }

  ghost predicate UniqueUserIds(users: seq<User>) {
    forall i, j :: 0 <= i < j < |users| ==> users[i].id != users[j].id
  }

  ghost predicate UniqueStudentIds(students: seq<Student>) {
    forall i, j :: 0 <= i < j < |students| ==> students[i].id != students[j].id
  }

  ghost predicate UniqueEmails(users: seq<User>) {
    forall i, j :: 0 <= i < j < |users| ==> users[i].email != users[j].email
  }

  /** The composite key (classId, userId) of the link table is unique. */
  ghost predicate UniqueLinks(links: seq<ManagerLink>) {
    forall i, j :: 0 <= i < j < |links| ==>
      links[i].classId != links[j].classId || links[i].userId != links[j].userId
  }
}

=== FILE: strings.dfy ===
/** Small facts about strings (`seq<char>`) shared by the rest of the model. */
module Strings {

  predicate IsDigit(c: char) {
    '0' <= c <= '9'
  }

  /** JavaScript `s.startsWith(prefix)`, Python `s.startswith(prefix)`. */
  predicate StartsWith(s: string, prefix: string) {
    |prefix| <= |s| && s[..|prefix|] == prefix
  }

  /** JavaScript `s.endsWith(suffix)`. */
  predicate EndsWith(s: string, suffix: string) {
    |suffix| <= |s| && s[|s| - |suffix|..] == suffix
  }

  /** Lexicographic order on code points: the order `orderBy: { name: 'asc' }` is modelled by. */
  predicate LexLe(a: string, b: string)
    decreases |a|
  {
    if a == [] then true
    else if b == [] then false
    else if a[0] != b[0] then a[0] < b[0]
    else LexLe(a[1..], b[1..])
  }

  /** Any two strings are comparable, so sorting by name is well defined. */
  lemma {:induction false} LexLeTotal(a: string, b: string)
    ensures LexLe(a, b) || LexLe(b, a)
    decreases |a|
  {
    if a != [] && b != [] && a[0] == b[0] {
      LexLeTotal(a[1..], b[1..]);
    }
  }

  function DigitChar(d: nat): char
    requires d < 10
  {
    "0123456789"[d]
  }

  /** Decimal rendering of a natural number, as a template literal `${n}` prints it. */
  function NatToString(n: nat): (s: string)
    ensures |s| >= 1
    ensures forall i :: 0 <= i < |s| ==> IsDigit(s[i])
    decreases n
  {
    if n < 10 then [DigitChar(n)] else NatToString(n / 10) + [DigitChar(n % 10)]
  }

  /** Decimal rendering of an integer, with a leading '-' for negative numbers. */
  function IntToString(n: int): string {
    if n < 0 then "-" + NatToString(-n) else NatToString(n)
  }
}

=== FILE: sync.dfy ===
/** `syncChanges`: the single `/sync` endpoint dispatches on the HTTP method, and the
    properties that connect a push to a later pull. */
module Sync {
  import opened Wrappers
  import opened Values
  import opened SyncTypes
  import opened Ordering
  import opened Push
  import opened PushProperties
  import opened Pull

  datatype SyncResponse =
    | MethodNotAllowed
    | PushReply(push: PushOutcome)
    | PullReply(pull: PullOutcome)
  {
    /** The HTTP status, where the handler answers at all. */
    function Status(): Option<nat> {
      match this
      case MethodNotAllowed => Some(405)
      case PushReply(p) => Some(p.Status())
      case PullReply(p) => if p.Pulled? then Some(200) else None
    }
  }

  /** A request: the HTTP method, the body's `changes` (None when not an array) and the query's `since`. */
  datatype Request = Request(verb: string, changes: Option<seq<Change>>, since: Option<string>)

  /** `syncChanges`: POST pushes, GET pulls, anything else is 405. Only a push writes. */
  function SyncChanges(s: Store, req: Request, env: Env): (r: (Store, SyncResponse))
    ensures req.verb != "POST" && req.verb != "GET" ==> r == (s, MethodNotAllowed)
    ensures req.verb == "GET" ==> r.0 == s && r.1 == PullReply(HandlePull(s, req.since, env.now, env.parse))
    ensures req.verb == "POST" && req.changes.None? ==> r == (s, PushReply(InvalidFormat))
    ensures req.verb == "POST" && req.changes.Some? ==> r.1.PushReply? && r.1.push.Pushed? && r.1.push.response.success
    ensures req.verb == "POST" && req.changes.Some? ==>
      r.0 == HandlePush(s, req.changes, env).store && r.1 == PushReply(HandlePush(s, req.changes, env))
  {
    if req.verb == "POST" then
      var out := HandlePush(s, req.changes, env);
      (if out.Pushed? then out.store else s, PushReply(out))
    else if req.verb == "GET" then
      (s, PullReply(HandlePull(s, req.since, env.now, env.parse)))
    else
      (s, MethodNotAllowed)
  }

  /** Soft delete round trip: once a delete of an existing row has been applied at a time
      after the checkpoint, a pull from that checkpoint returns the row, marked deleted. */
  lemma DeletedRowIsPulled(s: Store, c: Change, env: Env, since: Time, pullNow: Time)
    requires IsDelete(c.operation) && KnownEntityType(c.entityType)
    requires c.entityId in Rows(s, TargetOf(c))
    requires Step(s, c, env).Applied?
    requires since < env.now
    ensures var t := TargetOf(c);
      var rows := Returned(HandlePull(After(s, c, env), Some("x"), pullNow, _ => Some(since)).response, t);
      && HandlePull(After(s, c, env), Some("x"), pullNow, _ => Some(since)).Pulled?
      && c.entityId in rows
      && "isDeleted" in rows[c.entityId]
      && rows[c.entityId]["isDeleted"] == VBool(true)
  {
    var t := TargetOf(c);
    var s1 := After(s, c, env);
    var row := Rows(s1, t)[c.entityId];
    assert row == MarkDeleted(Rows(s, t)[c.entityId], DeletedAt(c.payload.value, env).value, env.now);
    assert UpdatedAfter(row, since);
    match t
    case Students =>
    case AttendanceSessions =>
    case AttendanceRecords =>
    case Notes =>
    case Classes =>
  }
}

=== FILE: sync_types.dfy ===
/** The vocabulary of the sync protocol: client changes, the tables a change can target,
    and the server store as a map from table to (id -> row). */
module SyncTypes {
  import opened Wrappers
  import opened Values

  type Id = string

  /** One queued client mutation. `payload` is None when the client sent `undefined` or
      `null`; `operation` is the raw token (anything other than a delete is an upsert). */
  datatype Change = Change(
    uuid: string,
    entityType: string,
    entityId: Id,
    operation: string,
    payload: Option<Obj>)

  /** The five tables the sync engine can write. */
  datatype Table = Students | AttendanceSessions | AttendanceRecords | Notes | Classes

  type Row = Obj
  type TableRows = map<Id, Row>
  type Store = map<Table, TableRows>

  /** The rows of one table; a table absent from the map is empty. */
  function Rows(s: Store, t: Table): TableRows {
    if t in s then s[t] else map[]
  }

  /** The token set that names a table. */
  predicate KnownEntityType(entityType: string) {
    entityType in {"STUDENT", "ATTENDANCE_SESSION", "ATTENDANCE", "NOTE", "CLASS"}
  }

  /** `mapEntityToModel`: exactly five case-sensitive tokens name a table. `USER` has a
      sort priority but no table, and there is no alias such as `ATTENDANCE_RECORD`. */
  function MapEntityToModel(entityType: string): (r: Option<Table>)
    ensures r == Some(Students) <==> entityType == "STUDENT"
    ensures r == Some(AttendanceSessions) <==> entityType == "ATTENDANCE_SESSION"
    ensures r == Some(AttendanceRecords) <==> entityType == "ATTENDANCE"
    ensures r == Some(Notes) <==> entityType == "NOTE"
    ensures r == Some(Classes) <==> entityType == "CLASS"
    ensures r.None? <==> !KnownEntityType(entityType)
  {
    match entityType
    case "STUDENT" => Some(Students)
    case "ATTENDANCE_SESSION" => Some(AttendanceSessions)
    case "ATTENDANCE" => Some(AttendanceRecords)
    case "NOTE" => Some(Notes)
    case "CLASS" => Some(Classes)
    case _ => None
  }

}

=== FILE: user_admin.dfy ===
/** The admin side of account approval: activating a user and listing the servants that
    wait for approval. */
module UserAdmin {
  import opened Wrappers
  import opened Values
  import opened Schema
  import opened Http
  import opened Auth

  /** `select: { id, name, email, createdAt }` of a pending user. */
  datatype PendingView = PendingView(id: string, name: string, email: string, createdAt: Time)

  /** `where: { isActive: false, role: 'SERVANT', isDeleted: false }`. */
  predicate Pending(u: User) {
    !u.isActive && u.role == Servant && !u.isDeleted
  }

  function ViewOf(u: User): PendingView {
    PendingView(u.id, u.name, u.email, u.createdAt)
  }

  /** `listPendingUsers`: exactly the pending users, in table order. */
  function ListPendingUsers(users: seq<User>): (r: seq<PendingView>)
    ensures forall v :: v in r <==> exists u :: u in users && Pending(u) && v == ViewOf(u)
    ensures |r| <= |users|
  {
    if users == [] then []
    else
      assert forall u :: u in users <==> u == users[0] || u in users[1..];
      (if Pending(users[0]) then [ViewOf(users[0])] else []) + ListPendingUsers(users[1..])
  }

  /** Every row with the id, switched on; the rest as it was. */
  function SetActive(users: seq<User>, id: string): (r: seq<User>)
    ensures |r| == |users|
    ensures forall i :: 0 <= i < |users| ==>
      r[i] == if users[i].id == id then users[i].(isActive := true) else users[i]
  {
    if users == [] then []
    else [if users[0].id == id then users[0].(isActive := true) else users[0]] + SetActive(users[1..], id)
  }

  /** `activateUser`: a user id is required; an unknown id is Prisma's record-not-found error,
      answered with a 500. Activation switches on any account with the id, whatever its role
      and even when it is deleted, and changes nothing else. */
  function ActivateUser(db: Db, userId: Option<string>): (r: (Db, Reply<(string, bool)>))
    ensures Missing(userId) ==> r == (db, Failure(400, "UserId required"))
    ensures !Missing(userId) && FindUser(db.users, userId.value).None? ==> r == (db, Failure(500, ServerError))
    ensures r.1.Success? <==> !Missing(userId) && FindUser(db.users, userId.value).Some?
    ensures r.1.Success? ==>
      && r.1 == Success(200, (userId.value, true))
      && r.0 == db.(users := SetActive(db.users, userId.value))
  {
    if Missing(userId) then (db, Failure(400, "UserId required"))
    else if FindUser(db.users, userId.value).None? then (db, Failure(500, ServerError))
    else (db.(users := SetActive(db.users, userId.value)), Success(200, (userId.value, true)))
  }

  /** Once activated, a user no longer appears among the pending users. */
  lemma ActivatedIsNotPending(db: Db, userId: Option<string>)
    requires ActivateUser(db, userId).1.Success?
    ensures forall v :: v in ListPendingUsers(ActivateUser(db, userId).0.users) ==> v.id != userId.value
  {
    var users := ActivateUser(db, userId).0.users;
    forall v | v in ListPendingUsers(users)
      ensures v.id != userId.value
    {
      var u :| u in users && Pending(u) && v == ViewOf(u);
      var i :| 0 <= i < |users| && users[i] == u;
      var before := db.users[i];
      assert u.id == before.id && (before.id == userId.value ==> u.isActive);
    }
  }

  /** A servant registered after the first user shows up as pending. */
  lemma RegisteredServantIsPending(db: Db, req: RegisterRequest, crypto: Crypto, newId: string, now: Time)
    requires db.users != [] && req.role != Some("ADMIN")
    requires Register(db, req, crypto, newId, now).1.Success?
    ensures PendingView(newId, req.name, req.email, now)
         in ListPendingUsers(Register(db, req, crypto, newId, now).0.users)
  {
    var u := NewUser(db, req, crypto, newId, now);
    assert u in Register(db, req, crypto, newId, now).0.users;
  }

  lemma {:induction false} FindAppendedId(users: seq<User>, u: User)
    requires FindUser(users, u.id).None?
    ensures FindUser(users + [u], u.id) == Some(u)
  {
    if users != [] {
      assert (users + [u])[1..] == users[1..] + [u];
      FindAppendedId(users[1..], u);
    } else {
      assert users + [u] == [u];
    }
  }

  lemma {:induction false} FindEmailAfterSetActive(users: seq<User>, id: string, email: string)
    requires FindUserByEmail(users, email).Some?
    ensures FindUserByEmail(SetActive(users, id), email).Some?
    ensures var u := FindUserByEmail(users, email).value;
      FindUserByEmail(SetActive(users, id), email).value
        == if u.id == id then u.(isActive := true) else u
  {
    if users[0].email != email {
      FindEmailAfterSetActive(users[1..], id, email);
      assert SetActive(users, id)[1..] == SetActive(users[1..], id);
    }
  }

  /** The approval flow end to end: a servant registers, an admin activates the new id, and
      the servant's next login with the same password succeeds with a servant token. */
  lemma RegisterActivateLogin(db: Db, req: RegisterRequest, crypto: Crypto, newId: string, now: Time)
    requires db.users != [] && req.role != Some("ADMIN") && newId != ""
    requires Register(db, req, crypto, newId, now).1.Success?
    requires crypto.compare(req.password, crypto.hash(req.password))
    ensures var db2 := Register(db, req, crypto, newId, now).0;
      var db3 := ActivateUser(db2, Some(newId)).0;
      && ActivateUser(db2, Some(newId)).1.Success?
      && Login(db3, req.email, req.password, crypto).Success?
      && Login(db3, req.email, req.password, crypto).value.token == Claims(newId, Servant, TokenLifetime)
  {
    var u := NewUser(db, req, crypto, newId, now);
    var db2 := Register(db, req, crypto, newId, now).0;
    FindAppendedId(db.users, u);
    FindAppendedEmail(db.users, u);
    FindEmailAfterSetActive(db2.users, newId, req.email);
  }
}

=== FILE: values.dfy ===
/** Loosely typed JSON values as they arrive in a sync payload and as they are stored
    in an untyped row. Timestamps are milliseconds since the Unix epoch. */
module Values {
  import opened Wrappers

  type Time = int

  /** The epoch, `new Date(0)`. */
  const Epoch: Time := 0

  /** `VOther` stands for arrays and nested objects, which no rule of the model inspects. */
  datatype Value =
    | VNull
    | VBool(b: bool)
    | VNum(n: int)
    | VStr(s: string)
    | VTime(t: Time)
    | VOther

  /** A payload or a stored row: field name to value. */
  type Obj = map<string, Value>

  /** `new Date(s)` on a string: the parsed instant, or None for an Invalid Date.
      JavaScript's date grammar is not modelled; it is a parameter of every operation that parses. */
  type DateParser = string -> Option<Time>

  /** JavaScript truthiness of a JSON value. */
  predicate Truthy(v: Value) {
    match v
    case VNull => false
    case VBool(b) => b
    case VNum(n) => n != 0
    case VStr(s) => s != ""
    case VTime(_) => true
    case VOther => true
  }

  /** The largest distance from the epoch, in milliseconds, that a JavaScript `Date` can hold
      (the TimeClip operation of ECMA-262). */
  const MaxTimeMillis := 8_640_000_000_000_000

  predicate InTimeRange(n: int) {
    -MaxTimeMillis <= n <= MaxTimeMillis
  }

  /** `new Date(v)` for the values a payload can carry: a string is parsed, a number is
      taken as milliseconds and is invalid beyond the time range, a boolean is 0 or 1
      milliseconds and null is 0; an object or array is taken as invalid. */
  function ToDate(v: Value, parse: DateParser): (r: Option<Time>)
    ensures v.VNum? ==> r == if InTimeRange(v.n) then Some(v.n) else None
    ensures v.VTime? ==> r == Some(v.t)
    ensures v.VStr? ==> r == parse(v.s)
    ensures v.VBool? ==> r == Some(if v.b then 1 else 0)
    ensures v.VNull? ==> r == Some(0)
    ensures r.None? <==> v.VOther? || (v.VStr? && parse(v.s).None?) || (v.VNum? && !InTimeRange(v.n))
  {
    match v
    case VStr(s) => parse(s)
    case VNum(n) => if InTimeRange(n) then Some(n) else None
    case VTime(t) => Some(t)
    case VBool(b) => Some(if b then 1 else 0)
    case VNull => Some(0)
    case VOther => None
  }
}

=== FILE: wrappers.dfy ===
/** Optional values, used for absent request fields, absent rows and failed parses. */
module Wrappers {

  datatype Option<+T> = None | Some(value: T) {

    /** Returns the value held in Some, or `default` when None. */
    function GetOr(default: T): T {
      match this
      case Some(v) => v
      case None => default
    }
  }
}
